=== FILE: README.md ===
# Climate data viewer and energy-finance placeholders: a Dafny model

This project models the computational core of a small climate-data web
application and its energy-finance companion.

**Browser side.** The model covers:

- the reductions the browser applies to a latitude × longitude grid, where each
  cell is either a scalar or a time series:
  - the time series and seasonal cycle are spatial means, and a step with no
    valid sample gives null;
  - the histogram flattens the grid;
  - the heatmap and anomaly views take one time slice;
  - the min/mean/max summary;
- the CSV and JSON exports in both scopes, 'current' and 'full';
- the colormap lookup;
- the validation and request payload of an analysis run;
- the choice of how an analysis result is displayed;
- the description shown for a climate index;
- the filtering of the variable list.

**Server side.** The model covers:

- the upload extension filter;
- the defaults the new-project form applies;
- the solar energy-production estimate;
- the financial-metrics placeholder.

**Data model.** A sample is `Option<real>`. `None` stands for everything the
JavaScript treats as `isNaN`: NaN itself, and the `undefined` that indexing
past a series or into a scalar produces. A cell is `Scalar(sample)` or
`Series(samples)`. A grid is a sequence of rows of cells, and rows may be
ragged, as the loops in the code allow.

**Modules.**

| Module | Contents |
|---|---|
| `Grid` | Shared vocabulary: valid samples, sums, means, minima and maxima. |
| `Reducers` | The reductions. The time-series and histogram reductions are loops, verified against recursive reference definitions. |
| `CsvExport` | The CSV rows, their rendering to text, and a line/field splitter that inverts the rendering. |
| `JsonExport` | Builds the export as a JSON value tree. A decoder is proved to invert it. |
| `Colormap` | The nine palettes, with their hex codes exactly as in the code. |
| `Analysis` | The run-analysis form, the result display dispatch and the index descriptions. |
| `VariableList` | Dropping dimension names from the variable list. |
| `Upload` | `allowed_file`. |
| `Energy` | `estimate_energy_production` and `calculate_financial_metrics`. |
| `ProjectForm` | The solar branch of `new_project`. |

**Parameters instead of built-ins.** Several language built-ins have no
counterpart in Dafny and become parameters:

- number-to-text formatting is `fmt: real -> string`;
- Python's `int()` and `float()` are `parse: string -> Option<T>`, where
  `None` is a `ValueError`.

## Model

| member | source | states |
|---|---|---|
| Reducers.SpatialMeanNull | static/js/visualization.js:321-339 | The area average at step t is null exactly when no cell holds a valid sample at index t. |
| Reducers.SpatialMeanBounds | static/js/visualization.js:321-339 | A non-null area average lies between the smallest and largest valid sample at that step. |
| Reducers.RowSumCount | static/js/visualization.js:330-335 | The inner loop over one row accumulates exactly the sum and count of the row's valid samples at step t. |
| Reducers.SpatialMeanAt | static/js/visualization.js:321-339 | The nested loops for one step compute sum/count over all valid samples at that step, or null when the count is 0. |
| Reducers.SpatialMeanSeries | static/js/visualization.js:321-339 | One average per requested step, each equal to the mean of that step's valid samples. |
| Reducers.TimeSeries | static/js/visualization.js:321-339 | The series has one value per time label; a value is null iff no cell is valid at that step, otherwise it is the sum of valid samples over their count. |
| Reducers.SeasonalCycle | static/js/data_processing.js:734-748 | One value per month, equal to the spatial mean of that month's valid values. It is null iff no cell has a valid value for the month, and otherwise lies between their minimum and maximum. |
| Reducers.CellValues | static/js/visualization.js:401-413 | The values one cell contributes to the histogram are exactly its valid samples, in order. |
| Reducers.RowValues | static/js/visualization.js:400-414 | The values one row contributes are its cells' valid samples, concatenated in order. |
| Reducers.HistogramValues | static/js/visualization.js:396-415 | The flattened histogram input is exactly the valid samples of the grid, row by row and cell by cell. |
| Reducers.HistogramContents | static/js/visualization.js:396-415 | A value is in the histogram iff some cell holds it as a valid sample; the histogram is never longer than the number of samples. |
| Reducers.TimeSlice | static/js/data_processing.js:442-444 | The anomaly slice keeps the grid's shape and puts the sample at index t of cell (i, j) at (i, j). |
| Reducers.TimeSliceAgreesWithSpatialMean | static/js/data_processing.js:442-444 | Flattening a slice gives the samples the time series averages at that step, so the slice's mean is the time-series value. |
| Reducers.HeatmapData | static/js/visualization.js:468-475 | An empty grid fails; a 2D grid (first cell not an array) is plotted unchanged; a 3D grid keeps its shape and each cell becomes its first time step. |
| Reducers.HeatmapIsFirstSlice | static/js/visualization.js:468-475 | On 3D data every heatmap cell equals the corresponding entry of the step-0 slice. |
| Reducers.SummaryStats | static/js/data_processing.js:348-352 | No summary iff no value is valid. Otherwise the mean is the sum of the valid values over their count, and min ≤ mean ≤ max. Min and max occur in the data, and every valid value lies between them. |
| Reducers.SummaryAgreesWithSpatialMean | static/js/data_processing.js:348-352 | The summary of the slice at step t exists iff the time-series value at t is non-null, and its mean equals that value. |
| Grid.SampleAt | static/js/visualization.js:331 | Reading step t of a cell gives a value only when the cell is a series long enough to have step t, and then it is that entry; reading a scalar cell or past the end gives undefined, which counts as missing. |
| Grid.IsThreeD | static/js/visualization.js:469 | The grid counts as 3D exactly when its first row has a first cell and that cell is an array of samples. A 2D grid's first cell holds a single value. |
| Grid.MeanBetweenMinMax | static/js/data_processing.js:348-352 | The mean of a non-empty list of values lies between its minimum and maximum. |
| Grid.Min | static/js/data_processing.js:350 | The minimum occurs in the list and bounds every element from below. |
| Grid.Max | static/js/data_processing.js:351 | The maximum occurs in the list and bounds every element from above. |
| CsvExport.ScopeOf | static/js/visualization.js:575-589 | The export scope is 'current' exactly when the selected data type is the text "current"; anything else exports everything. |
| CsvExport.CsvRows | static/js/visualization.js:564-605 | Exporting an empty grid fails (the code reads data[0][0]). Otherwise the value column of the rows is exactly the valid samples the nested loops visit, in visiting order. |
| CsvExport.ExportedSamples | static/js/visualization.js:568-605 | Every valid sample a cell contributes is one it holds. In 3D 'current' mode a cell contributes exactly one sample. In 3D 'full' mode an array cell contributes all its samples. In 2D mode a scalar cell contributes its one value. Outside 3D 'current' mode a cell never contributes more samples than it holds. |
| CsvExport.RenderCsv | static/js/visualization.js:565-601 | The text starts with the header line and ends with a newline; with no rows it is the header line alone. |
| CsvExport.CsvValuesAreValidSamples | static/js/visualization.js:564-605 | The value column of the CSV is exactly the list of valid samples the scope selects, in grid order, so there is one line per valid sample. |
| CsvExport.CsvRowPairing | static/js/visualization.js:564-605 | A line (lat, lon, v) appears iff some cell (i, j) has latitude lat, longitude lon and v among the valid samples the scope selects. |
| CsvExport.CsvRowSound | static/js/visualization.js:564-605 | Every CSV line is accounted for by a cell of the grid. |
| CsvExport.CsvRowComplete | static/js/visualization.js:564-605 | Every valid sample of every cell in scope produces a CSV line. |
| CsvExport.CurrentScopeIsFirstStep | static/js/visualization.js:575-580 | On 3D data the 'current' CSV walks exactly the samples of time step 0. |
| CsvExport.FullScopeIsAllSamples | static/js/visualization.js:581-589 | On 3D data whose cells are all series, the 'full' CSV walks every sample of every cell. |
| CsvExport.CsvLinesRoundTrip | static/js/visualization.js:565-605 | Splitting the CSV text at newlines gives the header followed by one line per row, so there is exactly one more line than there are rows. |
| CsvExport.LineFieldsRoundTrip | static/js/visualization.js:579 | Splitting one data line at commas gives back the formatted latitude, longitude and value. |
| JsonExport.ExportJson | static/js/visualization.js:624-644 | The export is a JSON object with no repeated key. It has five members, one more when the data has a time axis, and one more in the 'full' scope. |
| JsonExport.GridRoundTrip | static/js/visualization.js:624-644 | Decoding the JSON encoding of a grid gives the grid back, with missing samples as null. |
| JsonExport.CoordsRoundTrip | static/js/visualization.js:624-644 | Decoding the encoded coordinates gives them back. |
| JsonExport.ExportMembers | static/js/visualization.js:627-640 | The export object carries variable, units, data, latitudes and longitudes, plus times exactly when the data has a time axis. |
| JsonExport.ExportRoundTrip | static/js/visualization.js:624-644 | Reading either export back yields the variable, units, grid, coordinates and time axis unchanged. |
| JsonExport.FullAddsOnlyStatistics | static/js/visualization.js:624-644 | The 'full' export is the 'current' export plus one statistics member, which 'current' lacks. |
| Colormap.Palette | static/js/visualization.js:713-726 | Every palette is non-empty; a known name selects its palette and any other name selects viridis. |
| Colormap.Clamp | static/js/visualization.js:729 | The clamped value lies in [0, 1] and equals the input when the input already lies there. |
| Colormap.ColorIndex | static/js/visualization.js:732-733 | floor(clamped × (n − 1)) is always a valid index into an n-colour palette. |
| Colormap.ColorFromColormap | static/js/visualization.js:711-735 | The colour returned belongs to the chosen palette, at the computed index. |
| Colormap.ColorIndexMonotone | static/js/visualization.js:729-733 | A larger value never selects an earlier colour. |
| Colormap.ColorEndpoints | static/js/visualization.js:729-734 | Values at or below 0 give the first colour; values at or above 1 give the last. |
| Colormap.UnknownNameFallsBack | static/js/visualization.js:726 | Any name outside the nine palettes colours exactly like viridis. |
| Colormap.MidpointColor | static/js/visualization.js:713-723 | Value 0.5 gives "#218F8B" in viridis and "#FDDBC7" in RdBu. |
| VariableList.VariableOptions | static/js/visualization.js:68-88 | Metadata without variables gives no options; otherwise a name is offered iff it is a variable and not a dimension. |
| VariableList.OptionsKeepOrder | static/js/visualization.js:77-86 | The options are a subsequence of the variables: a strictly increasing list of positions maps each option back to its variable. |
| Analysis.BuildRequest | static/js/data_processing.js:138-159 | A missing analysis type is reported first, then a missing variable. Otherwise the payload carries the variable, the baseline years for a temperature anomaly, the index type for climate indices, and nothing else. |
| Analysis.RequestIgnoresOtherFields | static/js/data_processing.js:149-159 | Form fields the selected analysis does not use do not affect the request. |
| Analysis.DisplayFor | static/js/data_processing.js:273-301 | An error message takes precedence over everything and is the message shown. A climate-index result that itself carries an error is shown as a failure quoting that inner error (data_processing.js:609-616). Otherwise the display matches the analysis type, and it is the unsupported-type notice iff the type is not one of the five. |
| Analysis.IndexDescription | static/js/data_processing.js:662-679 | Each of the six index codes gets its fixed description, which identifies the code. Any other code gets the server's description when present, else the generic text. |
| Upload.Lower | main.py:30 | Lower-casing keeps the length and lowers each character in place: an upper-case ASCII letter becomes its lower-case form, and every other character is kept. |
| Upload.Extension | main.py:30 | The name ends with a '.' followed by the extension, and the extension holds no '.'; so it is the text after the last '.'. |
| Upload.AllowedFile | main.py:29-30 | A name without a dot is never allowed. |
| Upload.AllowedFileByLastDot | main.py:29-30 | With a dot, the verdict is whether the lower-cased text after the last dot is csv, xlsx or xls. |
| Upload.AllowedFileSpec | main.py:20-30 | A file is allowed iff, for the position of its final dot, the lower-cased text after it is one of the allowed extensions. |
| Upload.CaseInsensitive | main.py:29-30 | Lower-casing a file name never changes the verdict. |
| Upload.OnlyFinalExtension | main.py:29-30 | For stem + "." + ext with no dot in ext, only ext decides. |
| Upload.UpperCaseAccepted | main.py:29-30 | "DATA.CSV" is allowed. |
| Upload.TxtCsvAccepted | main.py:29-30 | "a.txt.csv" is allowed: only the last extension is read. |
| Upload.CsvTxtRejected | main.py:29-30 | "a.csv.txt" is not allowed: an allowed inner extension does not help. |
| Upload.TrailingDotRejected | main.py:29-30 | A name ending in a dot is never allowed. |
| Energy.EstimateEnergyProduction | utils.py:176-215 | Without a nonzero capacity the estimate is 0. Otherwise it is capacity × 1752 MWh, scaled by the performance ratio when one is set. With a nonzero degradation rate and year > 0 it is further multiplied by (1 − rate/100)^year. |
| Energy.DegradationCompounds | utils.py:210-213 | From year 0 on, each year's estimate is the previous year's times (1 − rate/100). |
| Energy.ProductionNonIncreasing | utils.py:176-215 | With non-negative capacity and ratio and a rate in [0, 100], production is non-negative and never grows from one year to a later one. |
| Energy.PowAntitone | utils.py:212 | A base in [0, 1] raised to a higher power is never larger. |
| Energy.CalculateFinancialMetrics | utils.py:134-173 | NPV, IRR, payback period and LCOE are all 0. Each rate is echoed from its argument, or, when that argument alone is omitted, is its default: 0.08, 0.025, 0.7 or 0.05. |
| Energy.MetricsEchoRoundTrip | utils.py:134-173 | Passing the echoed rates back in, with any project, reproduces the same result. |
| ProjectForm.OptionalNumber | main.py:98 | A blank field is stored as NULL; a non-blank one is parsed, and a failed parse is an error that quotes the rejected text. |
| ProjectForm.NumberOr | main.py:107 | A blank field takes the default; a non-blank one is parsed to its value, and a failed parse is an error that quotes the rejected text. |
| ProjectForm.NewSolarProject | main.py:88-117 | Blank lifetime, degradation and performance fields become 25, 0.5 and 0.75, and a blank capacity becomes NULL. A non-blank field stores its parsed value. Building the SolarProject succeeds iff every non-blank field parses; otherwise the error quotes the first field, in the order capacity, lifetime, degradation rate, performance ratio, whose text does not parse. |
| ProjectForm.DefaultsDriveEstimate | main.py:88-117 | For a project created with blank degradation and performance fields and a nonzero capacity, year y produces capacity × 1752 × 0.75 × 0.995^y. |

## Left out

- Rendering is not modelled: the DOM, Plotly traces and layouts, alerts, `fetch`, file download and `Date`. The model stops at the values handed to those APIs.
- Number display is not modelled: `toFixed`, `toString` and the text of numbers in the CSV. These are the `fmt` parameter.
- `JSON.stringify` is not modelled as text. The export is a JSON value tree, and whitespace and layout are left out.
- The 'full' JSON export is the loaded object itself, so its key order is whatever the server sent. The model appends the statistics member last.
- JsonExport.FullAddsOnlyStatistics: the loaded data is modelled with exactly seven members: variable, units, data, latitudes, longitudes, optional times and statistics. Any other member the server sends also reaches the 'full' export; that is not modelled.
- IEEE floating point is not modelled. Values are exact reals, and NaN is the absent sample.
- CsvExport.CsvRows: the latitude and longitude arrays must cover every cell; longer arrays are allowed. If an outer array is shorter than the grid, `latitudes[i][j]` throws a TypeError. If an inner array is shorter than its row, the code writes the text "undefined" as a coordinate. Neither case is modelled.
- CsvExport.ExportedSamples: a series cell in a 2D grid is skipped. In JavaScript, `isNaN` on an array coerces it to a number, and that coercion is not modelled.
- Colormap.Palette: names such as "toString" inherited through `Object.prototype` are not modelled.
- Reducers.SummaryStats: with no valid value the page shows Infinity, −Infinity and NaN; the model returns no summary.
- Reducers.TimeSeries: the "Insufficient data" early return when `data.data` or `data.times` is missing (static/js/visualization.js:314-317) is not modelled; the types here always carry a grid and a time list.
- Reducers.HeatmapData: the "Insufficient data" early return when `data.latitudes` or `data.longitudes` is missing (static/js/visualization.js:462-465) is not modelled. The member takes no coordinates, so it returns a heatmap where the page shows the placeholder.
- Reducers.TimeSeries: JSON nulls in the grid are not modelled, and the two kinds behave differently. A null inside a series is read as a sample; `isNaN(null)` is false, so the code adds it as 0 and counts it. A null cell makes `data.data[i][j][t]` (static/js/visualization.js:331) throw a TypeError, and the chart is not drawn. The model treats every absent sample as NaN and has no null cell.
- VariableList.VariableOptions: `metadata.variables` is modelled as a list of names and `metadata.dimensions` as a set of names, matching the keys of objects. A missing `dimensions` object makes `in` throw a TypeError, and arrays would be compared by index. Neither case is modelled.
- The seasonal peak and trough months come from `indexOf` on `Math.max` and `Math.min`, and are not modelled.
- Upload.Lower: only ASCII letters are lower-cased. Python's Unicode `lower()` cannot turn any other character into one of the letters of "csv", "xlsx" or "xls", so the verdict is the same.
- Python `int()` and `float()` text parsing is not modelled; it is a parameter.
- ProjectForm.NewSolarProject: only capacity, lifetime, degradation rate and performance ratio are modelled. The other numeric columns and date parsing follow the same blank-or-parse pattern, and may also raise.
- ProjectForm.NewSolarProject: the generic (non-solar) project branch is not modelled. It applies the same lifetime default.
- ProjectForm.NewSolarProject: the database commit (main.py:140-141) is not modelled. The projects table declares `capacity_mw` NOT NULL (energy_finance/models/project.py:17), so a project built with a blank capacity is rejected at commit and the error is flashed; the model only states when building the object succeeds.
- JsonExport.ExportRoundTrip: NaN samples are not reproduced bit for bit. `JSON.stringify` writes NaN as null, so a missing sample comes back as null. The round trip holds with absent samples mapped to null and back to absent.
- Flask routing, sessions, flashing, SQLAlchemy persistence and rollback, and the HTML templates are not modelled.
- The climate-analysis back end that produces the grids is not modelled. The model takes its results as inputs.

=== FILE: analysis.dfy ===
/** The analysis page's small decisions: validating the form and building
    the request payload, choosing the display for a returned result, and
    describing a climate index. */
module Analysis {
  import opened Wrappers

  const TemperatureMeanType: string := "temperature_mean"
  const TemperatureAnomalyType: string := "temperature_anomaly"
  const PrecipitationTotalType: string := "precipitation_total"
  const ClimateIndicesType: string := "climate_indices"
  const SeasonalCycleType: string := "seasonal_cycle"

  /** The form controls runAnalysis reads; an unset select is "". */
  datatype AnalysisForm = AnalysisForm(
    analysisType: string,
    variable: string,
    baselineStart: string,
    baselineEnd: string,
    indexType: string)

  datatype FormError = MissingAnalysisType | MissingVariable

  datatype AnalysisRequest = AnalysisRequest(analysisType: string, parameters: map<string, string>)

  /** runAnalysis up to the request: an empty analysis type, then an empty
      variable, abort with an alert; otherwise the payload always names the
      variable and carries only the parameters of its analysis type. */
  function BuildRequest(f: AnalysisForm): (r: Result<AnalysisRequest, FormError>)
    ensures r == Failure(MissingAnalysisType) <==> f.analysisType == ""
    ensures r == Failure(MissingVariable) <==> f.analysisType != "" && f.variable == ""
    ensures r.Success? <==> f.analysisType != "" && f.variable != ""
    ensures r.Success? ==> r.value.analysisType == f.analysisType
    ensures r.Success? ==> "variable" in r.value.parameters && r.value.parameters["variable"] == f.variable
    ensures r.Success? ==>
      ("baseline_start" in r.value.parameters <==> f.analysisType == TemperatureAnomalyType) &&
      ("baseline_end" in r.value.parameters <==> f.analysisType == TemperatureAnomalyType) &&
      ("index_type" in r.value.parameters <==> f.analysisType == ClimateIndicesType)
    ensures r.Success? && f.analysisType == TemperatureAnomalyType ==>
      r.value.parameters == map["variable" := f.variable, "baseline_start" := f.baselineStart, "baseline_end" := f.baselineEnd]
    ensures r.Success? && f.analysisType == ClimateIndicesType ==>
      r.value.parameters == map["variable" := f.variable, "index_type" := f.indexType]
    ensures r.Success? && f.analysisType != TemperatureAnomalyType && f.analysisType != ClimateIndicesType ==>
      r.value.parameters == map["variable" := f.variable]
  {
    if f.analysisType == "" then Failure(MissingAnalysisType)
    else if f.variable == "" then Failure(MissingVariable)
    else
      var base := map["variable" := f.variable];
      var parameters :=
        if f.analysisType == TemperatureAnomalyType then
          base["baseline_start" := f.baselineStart]["baseline_end" := f.baselineEnd]
        else if f.analysisType == ClimateIndicesType then
          base["index_type" := f.indexType]
        else base;
      Success(AnalysisRequest(f.analysisType, parameters))
  }

  /** The parameters of a built request depend only on the variable, the
      analysis type and that type's own fields: editing a field another
      analysis type uses changes nothing. */
  lemma RequestIgnoresOtherFields(f: AnalysisForm, g: AnalysisForm)
    requires f.analysisType == g.analysisType && f.variable == g.variable
    requires f.analysisType == TemperatureAnomalyType ==>
      f.baselineStart == g.baselineStart && f.baselineEnd == g.baselineEnd
    requires f.analysisType == ClimateIndicesType ==> f.indexType == g.indexType
    ensures BuildRequest(f) == BuildRequest(g)
  {
  }

  /** What the server returned for one analysis: its type, an optional
      error on the record, and an optional error inside the result body
      (which only the climate-index display inspects). */
  datatype AnalysisOutcome = AnalysisOutcome(analysisType: string, error: Option<string>, resultError: Option<string>)

  /** JavaScript truthiness of an optional string. */
  predicate Truthy(s: Option<string>)
  {
    s.Some? && s.value != ""
  }

  datatype Display =
    | AnalysisFailed(message: string)
    | ShowTemperatureMean
    | ShowTemperatureAnomaly
    | ShowPrecipitationTotal
    | ShowClimateIndices
    | ClimateIndexFailed(message: string)
    | ShowSeasonalCycle
    | UnsupportedType(analysisType: string)

  const SupportedTypes: set<string> :=
    {TemperatureMeanType, TemperatureAnomalyType, PrecipitationTotalType, ClimateIndicesType, SeasonalCycleType}

  /** The analysis type a display was chosen for; None for a record error. */
  function DisplayedType(d: Display): Option<string>
  {
    match d
    case AnalysisFailed(_) => None
    case ShowTemperatureMean => Some(TemperatureMeanType)
    case ShowTemperatureAnomaly => Some(TemperatureAnomalyType)
    case ShowPrecipitationTotal => Some(PrecipitationTotalType)
    case ShowClimateIndices => Some(ClimateIndicesType)
    case ClimateIndexFailed(_) => Some(ClimateIndicesType)
    case ShowSeasonalCycle => Some(SeasonalCycleType)
    case UnsupportedType(t) => Some(t)
  }

  /** displayAnalysisResult: the record's error wins; then exactly one of
      five displays by type; anything else is reported as unsupported. */
  function DisplayFor(r: AnalysisOutcome): (d: Display)
    ensures d.AnalysisFailed? <==> Truthy(r.error)
    ensures d.AnalysisFailed? ==> d.message == r.error.value
    ensures d.ClimateIndexFailed? <==>
      !Truthy(r.error) && r.analysisType == ClimateIndicesType && Truthy(r.resultError)
    ensures d.ClimateIndexFailed? ==> d.message == r.resultError.value
    ensures !Truthy(r.error) ==> DisplayedType(d) == Some(r.analysisType)
    ensures !Truthy(r.error) ==> (d.UnsupportedType? <==> r.analysisType !in SupportedTypes)
  {
    if Truthy(r.error) then AnalysisFailed(r.error.value)
    else if r.analysisType == TemperatureMeanType then ShowTemperatureMean
    else if r.analysisType == TemperatureAnomalyType then ShowTemperatureAnomaly
    else if r.analysisType == PrecipitationTotalType then ShowPrecipitationTotal
    else if r.analysisType == ClimateIndicesType then
      (if Truthy(r.resultError) then ClimateIndexFailed(r.resultError.value) else ShowClimateIndices)
    else if r.analysisType == SeasonalCycleType then ShowSeasonalCycle
    else UnsupportedType(r.analysisType)
  }

  // ---- Climate index descriptions --------------------------------------

  const FrostDays: string := "Frost Days (FD) - Number of days when daily minimum temperature is below 0°C"
  const SummerDays: string := "Summer Days (SU) - Number of days when daily maximum temperature is above 25°C"
  const IceDays: string := "Ice Days (ID) - Number of days when daily maximum temperature is below 0°C"
  const GrowingSeason: string := "Growing Season Length (GSL) - Length of growing season"
  const MaxOfMax: string := "Maximum of daily maximum temperature (TXx)"
  const MinOfMin: string := "Minimum of daily minimum temperature (TNn)"
  const GenericIndex: string := "Climate index measuring extreme or specific climate conditions"

  const KnownIndices: set<string> := {"FD", "SU", "ID", "GSL", "TXx", "TNn"}

  /** Reads the index code back out of one of the six fixed descriptions. */
  function IndexCodeOf(d: string): Option<string>
  {
    if d == FrostDays then Some("FD")
    else if d == SummerDays then Some("SU")
    else if d == IceDays then Some("ID")
    else if d == GrowingSeason then Some("GSL")
    else if d == MaxOfMax then Some("TXx")
    else if d == MinOfMin then Some("TNn")
    else None
  }

  /** The description shown for a climate index: a fixed text for the six
      known codes; otherwise the result's own description when it has one,
      else the generic text. A missing index type reads as "". */
  function IndexDescription(indexType: Option<string>, description: Option<string>): (d: string)
    ensures indexType.Some? && indexType.value in KnownIndices ==>
      d in {FrostDays, SummerDays, IceDays, GrowingSeason, MaxOfMax, MinOfMin}
    ensures indexType.Some? && indexType.value in KnownIndices ==> IndexCodeOf(d) == indexType
    ensures !(indexType.Some? && indexType.value in KnownIndices) ==>
      d == (if Truthy(description) then description.value else GenericIndex)
  {
    var code := if indexType.Some? then indexType.value else "";
    if code == "FD" then FrostDays
    else if code == "SU" then SummerDays
    else if code == "ID" then IceDays
    else if code == "GSL" then GrowingSeason
    else if code == "TXx" then MaxOfMax
    else if code == "TNn" then MinOfMin
    else if Truthy(description) then description.value
    else GenericIndex
  }
}

=== FILE: colormap.dfy ===
/** The chart colour picker: a named palette, a value clamped to [0, 1] and
    the colour at index floor(v * (n - 1)). Unknown names fall back to
    viridis. */
module Colormap {
  const Viridis: seq<string> := ["#440154", "#433982", "#30678D", "#218F8B", "#36B677", "#8ED542", "#FDE725"]
  const Plasma: seq<string> := ["#0D0887", "#5B02A3", "#9A179B", "#CB4678", "#EB7852", "#FBB32F", "#F0F921"]
  const Inferno: seq<string> := ["#000004", "#320A5A", "#781C6D", "#BB3654", "#EC6824", "#FBB41A", "#FCFFA4"]
  const Magma: seq<string> := ["#000004", "#2C105C", "#711F81", "#B63679", "#EE605E", "#FDAE78", "#FCFDBF"]
  const Cividis: seq<string> := ["#00224E", "#123570", "#3B496C", "#575E6A", "#707173", "#8A8678", "#A59C74", "#C2B26B", "#E0CA60"]
  const RdBu: seq<string> := ["#67001F", "#B2182B", "#D6604D", "#F4A582", "#FDDBC7", "#D1E5F0", "#92C5DE", "#4393C3", "#2166AC", "#053061"]
  const BrBG: seq<string> := ["#543005", "#8C510A", "#BF812D", "#DFC27D", "#F6E8C3", "#C7EAE5", "#80CDC1", "#35978F", "#01665E", "#003C30"]
  const YlOrRd: seq<string> := ["#FFFFCC", "#FFEDA0", "#FED976", "#FEB24C", "#FD8D3C", "#FC4E2A", "#E31A1C", "#BD0026", "#800026"]
  const YlGnBu: seq<string> := ["#FFFFD9", "#EDF8B1", "#C7E9B4", "#7FCDBB", "#41B6C4", "#1D91C0", "#225EA8", "#253494", "#081D58"]

  const Colormaps: map<string, seq<string>> := map[
    "viridis" := Viridis, "plasma" := Plasma, "inferno" := Inferno, "magma" := Magma,
    "cividis" := Cividis, "RdBu" := RdBu, "BrBG" := BrBG, "YlOrRd" := YlOrRd, "YlGnBu" := YlGnBu]

  /** `colormaps[name] || colormaps.viridis` */
  function Palette(name: string): (colors: seq<string>)
    ensures |colors| > 0
    ensures name in Colormaps ==> colors == Colormaps[name]
    ensures name !in Colormaps ==> colors == Viridis
  {
    if name in Colormaps then Colormaps[name] else Viridis
  }

  /** `Math.max(0, Math.min(value, 1))` */
  function Clamp(v: real): (c: real)
    ensures 0.0 <= c <= 1.0
    ensures 0.0 <= v <= 1.0 ==> c == v
    ensures v < 0.0 ==> c == 0.0
    ensures v > 1.0 ==> c == 1.0
  {
    if v < 0.0 then 0.0 else if v > 1.0 then 1.0 else v
  }

  /** `Math.floor(c * top)` */
  function ScaledFloor(c: real, top: real): int
  {
    (c * top).Floor
  }

  lemma ScaledFloorMonotone(a: real, b: real, k: real)
    requires a <= b && 0.0 <= k
    ensures ScaledFloor(a, k) <= ScaledFloor(b, k)
  {
    assert a * k <= b * k;
  }

  lemma ScaledFloorEnds(top: int)
    ensures ScaledFloor(0.0, top as real) == 0
    ensures ScaledFloor(1.0, top as real) == top
  {
    assert 0.0 * (top as real) == 0.0;
    assert 1.0 * (top as real) == top as real;
  }

  /** `Math.floor(clamped * (n - 1))`, always a valid index of an n-colour
      palette. */
  function ColorIndex(n: nat, v: real): (k: int)
    requires n > 0
    ensures 0 <= k < n
  {
    var top := (n - 1) as real;
    ScaledFloorEnds(n - 1);
    ScaledFloorMonotone(Clamp(v), 1.0, top);
    ScaledFloorMonotone(0.0, Clamp(v), top);
    ScaledFloor(Clamp(v), top)
  }

  function ColorFromColormap(name: string, v: real): (color: string)
    ensures color in Palette(name)
    ensures color == Palette(name)[ColorIndex(|Palette(name)|, v)]
  {
    var colors := Palette(name);
    colors[ColorIndex(|colors|, v)]
  }

  /** A larger value never picks an earlier colour. */
  lemma ColorIndexMonotone(n: nat, v: real, w: real)
    requires n > 0 && v <= w
    ensures ColorIndex(n, v) <= ColorIndex(n, w)
  {
    ScaledFloorMonotone(Clamp(v), Clamp(w), (n - 1) as real);
  }

  /** Values at or below 0 pick the first colour, at or above 1 the last. */
  lemma ColorEndpoints(name: string, v: real)
    ensures v <= 0.0 ==> ColorFromColormap(name, v) == Palette(name)[0]
    ensures v >= 1.0 ==> ColorFromColormap(name, v) == Palette(name)[|Palette(name)| - 1]
  {
    var n := |Palette(name)|;
    if v >= 1.0 {
      assert Clamp(v) == 1.0;
      assert 1.0 * ((n - 1) as real) == (n - 1) as real;
    }
  }

  /** Any name other than the nine palettes draws from viridis. */
  lemma UnknownNameFallsBack(name: string, v: real)
    requires name !in Colormaps
    ensures ColorFromColormap(name, v) == ColorFromColormap("viridis", v)
  {
  }

  /** The colour every chart trace uses: the middle of the palette. */
  lemma MidpointColor()
    ensures ColorFromColormap("viridis", 0.5) == "#218F8B"
    ensures ColorFromColormap("RdBu", 0.5) == "#FDDBC7"
  {
    assert (0.5 * 6.0).Floor == 3;
    assert (0.5 * 9.0).Floor == 4;
  }
}

=== FILE: csv_export.dfy ===
/** CSV export of the loaded grid: a `latitude,longitude,value` header and
    one line per valid sample, each paired with the coordinates of its own
    cell. */
module CsvExport {
  import opened Wrappers
  import opened Grid

  /** The export dialog's data type: 'current' exports time index 0 of 3D
      data; every other choice exports all time steps. */
  datatype Scope = Current | Full

  function ScopeOf(dataType: string): (s: Scope)
    ensures s == Current <==> dataType == "current"
  {
    if dataType == "current" then Current else Full
  }

  type Coords = seq<seq<real>>

  /** Latitudes and longitudes cover every cell of the grid; entries
      beyond the grid's shape are never read. */
  predicate Congruent(g: Grid, lats: Coords, lons: Coords)
  {
    && |lats| >= |g| && |lons| >= |g|
    && forall i :: 0 <= i < |g| ==> |lats[i]| >= |g[i]| && |lons[i]| >= |g[i]|
  }

  /** The samples of one cell that an export in this mode writes out:
      3D 'current' reads index 0; 3D 'full' walks the cell's array (a scalar
      cell has no length, so nothing); 2D reads the scalar value. */
  function ExportedSamples(c: Cell, threeD: bool, scope: Scope): (s: seq<Sample>)
    ensures forall k :: 0 <= k < |s| && s[k].Some? ==> s[k] in CellSamples(c)
    ensures threeD && scope == Current ==> |s| == 1
    ensures threeD && scope == Full && c.Series? ==> s == CellSamples(c)
    ensures !threeD && c.Scalar? ==> s == CellSamples(c)
    ensures (threeD && scope == Full) || !threeD ==> |s| <= |CellSamples(c)|
  {
    if threeD then
      if scope == Current then [SampleAt(c, 0)]
      else (match c case Series(xs) => xs case Scalar(_) => [])
    else
      (match c case Scalar(v) => [v] case Series(_) => [])
  }

  datatype CsvRow = CsvRow(lat: real, lon: real, value: real)

  function CellRows(lat: real, lon: real, samples: seq<Sample>): seq<CsvRow>
  {
    var vs := Valid(samples);
    seq(|vs|, k requires 0 <= k < |vs| => CsvRow(lat, lon, vs[k]))
  }

  function RowRows(lats: seq<real>, lons: seq<real>, row: seq<Cell>, threeD: bool, scope: Scope): seq<CsvRow>
    requires |lats| >= |row| && |lons| >= |row|
  {
    if |row| == 0 then []
    else
      var n := |row| - 1;
      RowRows(lats[..n], lons[..n], row[..n], threeD, scope)
        + CellRows(lats[n], lons[n], ExportedSamples(row[n], threeD, scope))
  }

  /** The nested loops of exportToCSV: rows in order, cells in order within
      a row, each cell's exported samples in order. */
  function GridRows(g: Grid, lats: Coords, lons: Coords, threeD: bool, scope: Scope): seq<CsvRow>
    requires Congruent(g, lats, lons)
  {
    if |g| == 0 then []
    else
      var n := |g| - 1;
      GridRows(g[..n], lats[..n], lons[..n], threeD, scope)
        + RowRows(lats[n], lons[n], g[n], threeD, scope)
  }

  /** exportToCSV's rows: the 3D test reads `data[0][0]`, which throws on an
      empty grid. */
  function CsvRows(g: Grid, lats: Coords, lons: Coords, scope: Scope): (r: Result<seq<CsvRow>, GridError>)
    requires Congruent(g, lats, lons)
    ensures r.Failure? <==> |g| == 0
    ensures r.Success? ==> Values(r.value) == Valid(GridExported(g, IsThreeD(g), scope))
  {
    if |g| == 0 then Failure(EmptyGrid)
    else
      CsvValuesAreValidSamples(g, lats, lons, IsThreeD(g), scope);
      Success(GridRows(g, lats, lons, IsThreeD(g), scope))
  }

  /** The samples an export visits, in the order it visits them. */
  function RowExported(row: seq<Cell>, threeD: bool, scope: Scope): seq<Sample>
  {
    if |row| == 0 then []
    else RowExported(row[..|row| - 1], threeD, scope) + ExportedSamples(row[|row| - 1], threeD, scope)
  }

  function GridExported(g: Grid, threeD: bool, scope: Scope): seq<Sample>
  {
    if |g| == 0 then []
    else GridExported(g[..|g| - 1], threeD, scope) + RowExported(g[|g| - 1], threeD, scope)
  }

  function Values(rows: seq<CsvRow>): (vs: seq<real>)
    ensures |vs| == |rows|
  {
    seq(|rows|, k requires 0 <= k < |rows| => rows[k].value)
  }

  lemma ValuesAppend(a: seq<CsvRow>, b: seq<CsvRow>)
    ensures Values(a + b) == Values(a) + Values(b)
  {
  }

  lemma {:induction false} RowRowsValues(lats: seq<real>, lons: seq<real>, row: seq<Cell>, threeD: bool, scope: Scope)
    requires |lats| >= |row| && |lons| >= |row|
    ensures Values(RowRows(lats, lons, row, threeD, scope)) == Valid(RowExported(row, threeD, scope))
  {
    if |row| > 0 {
      var n := |row| - 1;
      RowRowsValues(lats[..n], lons[..n], row[..n], threeD, scope);
      var samples := ExportedSamples(row[n], threeD, scope);
      ValuesAppend(RowRows(lats[..n], lons[..n], row[..n], threeD, scope), CellRows(lats[n], lons[n], samples));
      assert Values(CellRows(lats[n], lons[n], samples)) == Valid(samples);
      ValidAppend(RowExported(row[..n], threeD, scope), samples);
    }
  }

  /** The value column of the CSV is exactly the valid samples in scope, in
      visiting order; so the CSV has one line per valid sample. */
  lemma {:induction false} CsvValuesAreValidSamples(g: Grid, lats: Coords, lons: Coords, threeD: bool, scope: Scope)
    requires Congruent(g, lats, lons)
    ensures Values(GridRows(g, lats, lons, threeD, scope)) == Valid(GridExported(g, threeD, scope))
    ensures |GridRows(g, lats, lons, threeD, scope)| == |Valid(GridExported(g, threeD, scope))|
  {
    if |g| > 0 {
      var n := |g| - 1;
      CsvValuesAreValidSamples(g[..n], lats[..n], lons[..n], threeD, scope);
      RowRowsValues(lats[n], lons[n], g[n], threeD, scope);
      ValuesAppend(GridRows(g[..n], lats[..n], lons[..n], threeD, scope), RowRows(lats[n], lons[n], g[n], threeD, scope));
      ValidAppend(GridExported(g[..n], threeD, scope), RowExported(g[n], threeD, scope));
    }
  }

  /** Cell c, at coordinates (lat, lon), accounts for line r. */
  predicate Holds(c: Cell, lat: real, lon: real, threeD: bool, scope: Scope, r: CsvRow)
  {
    r.lat == lat && r.lon == lon && Some(r.value) in ExportedSamples(c, threeD, scope)
  }

  lemma CellRowsPairing(lat: real, lon: real, c: Cell, threeD: bool, scope: Scope, r: CsvRow)
    ensures r in CellRows(lat, lon, ExportedSamples(c, threeD, scope)) <==> Holds(c, lat, lon, threeD, scope, r)
  {
    var samples := ExportedSamples(c, threeD, scope);
    ValidMembership(samples, r.value);
    var cr := CellRows(lat, lon, samples);
    if Holds(c, lat, lon, threeD, scope, r) {
      var k :| 0 <= k < |Valid(samples)| && Valid(samples)[k] == r.value;
      assert cr[k] == r;
    }
  }

  lemma {:induction false} RowRowsSound(lats: seq<real>, lons: seq<real>, row: seq<Cell>, threeD: bool, scope: Scope, r: CsvRow)
    requires |lats| >= |row| && |lons| >= |row|
    requires r in RowRows(lats, lons, row, threeD, scope)
    ensures exists j :: 0 <= j < |row| && Holds(row[j], lats[j], lons[j], threeD, scope, r)
  {
    var n := |row| - 1;
    var front := RowRows(lats[..n], lons[..n], row[..n], threeD, scope);
    var last := CellRows(lats[n], lons[n], ExportedSamples(row[n], threeD, scope));
    assert RowRows(lats, lons, row, threeD, scope) == front + last;
    if r in front {
      RowRowsSound(lats[..n], lons[..n], row[..n], threeD, scope, r);
      var j :| 0 <= j < n && Holds(row[..n][j], lats[..n][j], lons[..n][j], threeD, scope, r);
      assert Holds(row[j], lats[j], lons[j], threeD, scope, r);
    } else {
      CellRowsPairing(lats[n], lons[n], row[n], threeD, scope, r);
      assert Holds(row[n], lats[n], lons[n], threeD, scope, r);
    }
  }

  lemma {:induction false} RowRowsComplete(lats: seq<real>, lons: seq<real>, row: seq<Cell>, threeD: bool, scope: Scope, r: CsvRow, j: int)
    requires |lats| >= |row| && |lons| >= |row|
    requires 0 <= j < |row| && Holds(row[j], lats[j], lons[j], threeD, scope, r)
    ensures r in RowRows(lats, lons, row, threeD, scope)
  {
    var n := |row| - 1;
    var front := RowRows(lats[..n], lons[..n], row[..n], threeD, scope);
    var last := CellRows(lats[n], lons[n], ExportedSamples(row[n], threeD, scope));
    assert RowRows(lats, lons, row, threeD, scope) == front + last;
    if j < n {
      assert Holds(row[..n][j], lats[..n][j], lons[..n][j], threeD, scope, r);
      RowRowsComplete(lats[..n], lons[..n], row[..n], threeD, scope, r, j);
    } else {
      CellRowsPairing(lats[n], lons[n], row[n], threeD, scope, r);
    }
  }

  /** A line (lat, lon, v) comes from row `row` exactly when some cell j of
      the row has coordinates (lat, lon) and v among its valid samples. */
  lemma RowRowsPairing(lats: seq<real>, lons: seq<real>, row: seq<Cell>, threeD: bool, scope: Scope, r: CsvRow)
    requires |lats| >= |row| && |lons| >= |row|
    ensures r in RowRows(lats, lons, row, threeD, scope) <==>
      exists j :: 0 <= j < |row| && Holds(row[j], lats[j], lons[j], threeD, scope, r)
  {
    if r in RowRows(lats, lons, row, threeD, scope) {
      RowRowsSound(lats, lons, row, threeD, scope, r);
    }
    if exists j :: 0 <= j < |row| && Holds(row[j], lats[j], lons[j], threeD, scope, r) {
      var j :| 0 <= j < |row| && Holds(row[j], lats[j], lons[j], threeD, scope, r);
      RowRowsComplete(lats, lons, row, threeD, scope, r, j);
    }
  }

  /** Some cell (i, j) of the grid accounts for line r. */
  ghost predicate SomeCellHolds(g: Grid, lats: Coords, lons: Coords, threeD: bool, scope: Scope, r: CsvRow)
    requires Congruent(g, lats, lons)
  {
    exists i, j :: 0 <= i < |g| && 0 <= j < |g[i]| && Holds(g[i][j], lats[i][j], lons[i][j], threeD, scope, r)
  }

  lemma {:induction false} CsvRowSound(g: Grid, lats: Coords, lons: Coords, threeD: bool, scope: Scope, r: CsvRow)
    requires Congruent(g, lats, lons)
    requires r in GridRows(g, lats, lons, threeD, scope)
    ensures SomeCellHolds(g, lats, lons, threeD, scope, r)
  {
    var n := |g| - 1;
    if r in GridRows(g[..n], lats[..n], lons[..n], threeD, scope) {
      CsvRowSound(g[..n], lats[..n], lons[..n], threeD, scope, r);
      var i, j :| 0 <= i < n && 0 <= j < |g[..n][i]| && Holds(g[..n][i][j], lats[..n][i][j], lons[..n][i][j], threeD, scope, r);
      assert g[..n][i] == g[i] && lats[..n][i] == lats[i] && lons[..n][i] == lons[i];
      assert Holds(g[i][j], lats[i][j], lons[i][j], threeD, scope, r);
    } else {
      RowRowsSound(lats[n], lons[n], g[n], threeD, scope, r);
      var j :| 0 <= j < |g[n]| && Holds(g[n][j], lats[n][j], lons[n][j], threeD, scope, r);
      assert Holds(g[n][j], lats[n][j], lons[n][j], threeD, scope, r);
    }
  }

  lemma {:induction false} CsvRowComplete(g: Grid, lats: Coords, lons: Coords, threeD: bool, scope: Scope, r: CsvRow, i: int, j: int)
    requires Congruent(g, lats, lons)
    requires 0 <= i < |g| && 0 <= j < |g[i]| && Holds(g[i][j], lats[i][j], lons[i][j], threeD, scope, r)
    ensures r in GridRows(g, lats, lons, threeD, scope)
  {
    var n := |g| - 1;
    assert GridRows(g, lats, lons, threeD, scope) ==
      GridRows(g[..n], lats[..n], lons[..n], threeD, scope) + RowRows(lats[n], lons[n], g[n], threeD, scope);
    if i < n {
      assert g[..n][i] == g[i] && lats[..n][i] == lats[i] && lons[..n][i] == lons[i];
      CsvRowComplete(g[..n], lats[..n], lons[..n], threeD, scope, r, i, j);
    } else {
      RowRowsComplete(lats[n], lons[n], g[n], threeD, scope, r, j);
    }
  }

  /** A line (lat, lon, v) is in the CSV exactly when some cell (i, j) has
      latitude lat, longitude lon and v among its valid samples in scope. */
  lemma CsvRowPairing(g: Grid, lats: Coords, lons: Coords, threeD: bool, scope: Scope, r: CsvRow)
    requires Congruent(g, lats, lons)
    ensures r in GridRows(g, lats, lons, threeD, scope) <==>
      exists i, j :: 0 <= i < |g| && 0 <= j < |g[i]| && Holds(g[i][j], lats[i][j], lons[i][j], threeD, scope, r)
  {
    if r in GridRows(g, lats, lons, threeD, scope) {
      CsvRowSound(g, lats, lons, threeD, scope, r);
    }
    if exists i, j :: 0 <= i < |g| && 0 <= j < |g[i]| && Holds(g[i][j], lats[i][j], lons[i][j], threeD, scope, r) {
      var i, j :| 0 <= i < |g| && 0 <= j < |g[i]| && Holds(g[i][j], lats[i][j], lons[i][j], threeD, scope, r);
      CsvRowComplete(g, lats, lons, threeD, scope, r, i, j);
    }
  }

  /** On 3D data the 'current' export walks exactly the samples the time
      series averages at step 0. */
  lemma {:induction false} CurrentScopeIsFirstStep(g: Grid)
    ensures GridExported(g, true, Current) == ColumnAt(g, 0)
  {
    if |g| > 0 {
      var n := |g| - 1;
      CurrentScopeIsFirstStep(g[..n]);
      CurrentRowIsFirstStep(g[n]);
    }
  }

  lemma {:induction false} CurrentRowIsFirstStep(row: seq<Cell>)
    ensures RowExported(row, true, Current) == RowSamples(row, 0)
  {
    if |row| > 0 {
      var n := |row| - 1;
      CurrentRowIsFirstStep(row[..n]);
      assert RowSamples(row, 0) == RowSamples(row[..n], 0) + [SampleAt(row[n], 0)];
    }
  }

  /** On a grid whose cells are all arrays, the 'full' export walks the same
      samples as the histogram. */
  lemma {:induction false} FullScopeIsAllSamples(g: Grid)
    requires forall i, j :: 0 <= i < |g| && 0 <= j < |g[i]| ==> g[i][j].Series?
    ensures GridExported(g, true, Full) == AllSamples(g)
  {
    if |g| > 0 {
      var n := |g| - 1;
      assert forall i, j :: 0 <= i < n && 0 <= j < |g[..n][i]| ==> g[..n][i][j] == g[i][j];
      FullScopeIsAllSamples(g[..n]);
      FullRowIsAllSamples(g[n]);
    }
  }

  lemma {:induction false} FullRowIsAllSamples(row: seq<Cell>)
    requires forall j :: 0 <= j < |row| ==> row[j].Series?
    ensures RowExported(row, true, Full) == RowAll(row)
  {
    if |row| > 0 {
      var n := |row| - 1;
      assert forall j :: 0 <= j < n ==> row[..n][j] == row[j];
      FullRowIsAllSamples(row[..n]);
    }
  }

  // ---- Text rendering -------------------------------------------------

  const Header: string := "latitude,longitude,value"

  /** `${lat},${lon},${value}` with the number formatting left abstract. */
  function LineText(r: CsvRow, fmt: real -> string): string
  {
    fmt(r.lat) + "," + fmt(r.lon) + "," + fmt(r.value)
  }

  function RenderRows(rows: seq<CsvRow>, fmt: real -> string): (s: string)
    ensures |rows| == 0 <==> |s| == 0
    ensures |s| > 0 ==> s[|s| - 1] == '\n'
  {
    if |rows| == 0 then "" else LineText(rows[0], fmt) + "\n" + RenderRows(rows[1..], fmt)
  }

  /** The CSV text: header line, then one newline-terminated line per row. */
  function RenderCsv(rows: seq<CsvRow>, fmt: real -> string): (s: string)
    ensures |s| > |Header| && s[..|Header| + 1] == Header + "\n"
    ensures s[|s| - 1] == '\n'
    ensures |rows| == 0 <==> s == Header + "\n"
  {
    Header + "\n" + RenderRows(rows, fmt)
  }

  /** Index of the first occurrence of c, or |s| when there is none. */
  function IndexOf(s: string, c: char): (k: nat)
    ensures k <= |s|
    ensures forall m :: 0 <= m < k ==> s[m] != c
    ensures k < |s| ==> s[k] == c
  {
    if |s| == 0 then 0
    else if s[0] == c then 0
    else 1 + IndexOf(s[1..], c)
  }

  /** Splits text into its lines, each newline ending one line. */
  function Lines(s: string): seq<string>
    decreases |s|
  {
    if |s| == 0 then []
    else
      var k := IndexOf(s, '\n');
      if k == |s| then [s] else [s[..k]] + Lines(s[k + 1..])
  }

  lemma LinesCons(a: string, rest: string)
    requires '\n' !in a
    ensures Lines(a + "\n" + rest) == [a] + Lines(rest)
  {
    var s := a + "\n" + rest;
    assert s[|a|] == '\n';
    assert forall m :: 0 <= m < |a| ==> s[m] == a[m];
    assert IndexOf(s, '\n') == |a|;
    assert s[..|a|] == a;
    assert s[|a| + 1..] == rest;
  }

  ghost predicate SingleLine(fmt: real -> string)
  {
    forall x :: '\n' !in fmt(x) && ',' !in fmt(x)
  }

  /** The lines of the rows, in order. */
  function LineTexts(rows: seq<CsvRow>, fmt: real -> string): (ls: seq<string>)
    ensures |ls| == |rows|
    ensures forall k :: 0 <= k < |rows| ==> ls[k] == LineText(rows[k], fmt)
  {
    if |rows| == 0 then [] else [LineText(rows[0], fmt)] + LineTexts(rows[1..], fmt)
  }

  lemma LineIsSingle(r: CsvRow, fmt: real -> string)
    requires SingleLine(fmt)
    ensures '\n' !in LineText(r, fmt)
  {
    var a, b, c := fmt(r.lat), fmt(r.lon), fmt(r.value);
    assert '\n' !in a && '\n' !in b && '\n' !in c;
    assert LineText(r, fmt) == a + "," + b + "," + c;
  }

  lemma {:induction false} RenderRowsLines(rows: seq<CsvRow>, fmt: real -> string)
    requires SingleLine(fmt)
    ensures Lines(RenderRows(rows, fmt)) == LineTexts(rows, fmt)
  {
    if |rows| > 0 {
      var line := LineText(rows[0], fmt);
      LineIsSingle(rows[0], fmt);
      LinesCons(line, RenderRows(rows[1..], fmt));
      RenderRowsLines(rows[1..], fmt);
    }
  }

  /** Splitting the rendered CSV into lines gives back the header and then
      each row's line in order: one header and exactly |rows| data lines. */
  lemma CsvLinesRoundTrip(rows: seq<CsvRow>, fmt: real -> string)
    requires SingleLine(fmt)
    ensures Lines(RenderCsv(rows, fmt)) == [Header] + LineTexts(rows, fmt)
    ensures |Lines(RenderCsv(rows, fmt))| == |rows| + 1
  {
    LinesCons(Header, RenderRows(rows, fmt));
    RenderRowsLines(rows, fmt);
  }

  /** Splitting one line at its commas yields the three fields. */
  function Fields(line: string): seq<string>
    decreases |line|
  {
    var k := IndexOf(line, ',');
    if k == |line| then [line] else [line[..k]] + Fields(line[k + 1..])
  }

  lemma FieldsCons(a: string, rest: string)
    requires ',' !in a
    ensures Fields(a + "," + rest) == [a] + Fields(rest)
  {
    var s := a + "," + rest;
    assert s[|a|] == ',';
    assert forall m :: 0 <= m < |a| ==> s[m] == a[m];
    assert IndexOf(s, ',') == |a|;
    assert s[..|a|] == a;
    assert s[|a| + 1..] == rest;
  }

  lemma FieldsSingle(a: string)
    requires ',' !in a
    ensures Fields(a) == [a]
  {
    assert IndexOf(a, ',') == |a|;
  }

  /** Each data line splits back into the formatted latitude, longitude and
      value of the same row. */
  lemma LineFieldsRoundTrip(r: CsvRow, fmt: real -> string)
    requires SingleLine(fmt)
    ensures Fields(LineText(r, fmt)) == [fmt(r.lat), fmt(r.lon), fmt(r.value)]
  {
    assert ',' !in fmt(r.lat) && ',' !in fmt(r.lon) && ',' !in fmt(r.value);
    FieldsSingle(fmt(r.value));
    FieldsCons(fmt(r.lon), fmt(r.value));
    assert LineText(r, fmt) == fmt(r.lat) + "," + (fmt(r.lon) + "," + fmt(r.value));
    FieldsCons(fmt(r.lat), fmt(r.lon) + "," + fmt(r.value));
  }
}

=== FILE: energy.dfy ===
/** The energy-finance placeholders: the annual production estimate of a
    solar project (capacity x capacity factor x hours, then performance
    ratio and compounding degradation) and the financial-metrics stub that
    returns zeros and echoes its rate arguments. */
module Energy {
  import opened Wrappers

  /** The fields of a solar project the estimate reads; None is a NULL
      column. */
  datatype SolarProject = SolarProject(
    capacityMw: Option<real>,
    performanceRatio: Option<real>,
    degradationRate: Option<real>,
    expectedLifetimeYears: int)

  /** Typical capacity factor for solar PV. */
  const CapacityFactor: real := 0.2
  const HoursPerYear: real := 8760.0

  /** Python truthiness of a nullable float: set and nonzero. */
  predicate Truthy(x: Option<real>)
  {
    x.Some? && x.value != 0.0
  }

  function Pow(b: real, n: nat): real
  {
    if n == 0 then 1.0 else b * Pow(b, n - 1)
  }

  /** The multiplier the performance ratio contributes: the ratio when set
      and nonzero, otherwise 1. */
  function RatioFactor(p: SolarProject): real
  {
    if Truthy(p.performanceRatio) then p.performanceRatio.value else 1.0
  }

  /** estimate_energy_production, in MWh for operating year `year`
      (0 is the first year). */
  function EstimateEnergyProduction(p: SolarProject, year: int): (e: real)
    ensures !Truthy(p.capacityMw) ==> e == 0.0
    ensures Truthy(p.capacityMw) && (year <= 0 || !Truthy(p.degradationRate)) ==>
      e == p.capacityMw.value * 1752.0 * RatioFactor(p)
    ensures Truthy(p.capacityMw) && Truthy(p.degradationRate) && year > 0 ==>
      e == p.capacityMw.value * 1752.0 * RatioFactor(p) * Pow(1.0 - p.degradationRate.value / 100.0, year)
  {
    if !Truthy(p.capacityMw) then 0.0
    else
      var base := p.capacityMw.value * CapacityFactor * HoursPerYear;
      var rated := if Truthy(p.performanceRatio) then base * p.performanceRatio.value else base;
      if Truthy(p.degradationRate) && year > 0 then
        rated * Pow(1.0 - p.degradationRate.value / 100.0, year)
      else rated
  }

  /** Inputs for which the estimate is physically meaningful. */
  predicate Plausible(p: SolarProject)
  {
    && (p.capacityMw.Some? ==> p.capacityMw.value >= 0.0)
    && (p.performanceRatio.Some? ==> p.performanceRatio.value >= 0.0)
    && (p.degradationRate.Some? ==> 0.0 <= p.degradationRate.value <= 100.0)
  }

  lemma {:induction false} PowInUnitInterval(b: real, n: nat)
    requires 0.0 <= b <= 1.0
    ensures 0.0 <= Pow(b, n) <= 1.0
  {
    if n > 0 {
      PowInUnitInterval(b, n - 1);
      assert Pow(b, n) == b * Pow(b, n - 1);
      UnitProduct(b, Pow(b, n - 1));
    }
  }

  lemma {:induction false} PowAntitone(b: real, m: nat, n: nat)
    requires 0.0 <= b <= 1.0 && m <= n
    ensures Pow(b, n) <= Pow(b, m)
    decreases n
  {
    if m < n {
      var prev := Pow(b, n - 1);
      PowAntitone(b, m, n - 1);
      PowInUnitInterval(b, n - 1);
      assert Pow(b, n) == b * prev;
      UnitProduct(b, prev);
      assert Pow(b, n) <= prev <= Pow(b, m);
    }
  }

  /** Each further year, starting from the first, multiplies the previous
      year's output by (1 - rate/100): degradation compounds. */
  lemma DegradationCompounds(p: SolarProject, year: int)
    requires Truthy(p.capacityMw) && Truthy(p.degradationRate) && year >= 0
    ensures EstimateEnergyProduction(p, year + 1) ==
      EstimateEnergyProduction(p, year) * (1.0 - p.degradationRate.value / 100.0)
  {
    var b := 1.0 - p.degradationRate.value / 100.0;
    var rated := p.capacityMw.value * 1752.0 * RatioFactor(p);
    assert Pow(b, year + 1) == b * Pow(b, year);
    if year == 0 {
      assert Pow(b, 0) == 1.0;
      assert EstimateEnergyProduction(p, 0) == rated;
      assert EstimateEnergyProduction(p, 1) == rated * Pow(b, 1);
    } else {
      assert EstimateEnergyProduction(p, year) == rated * Pow(b, year);
      assert EstimateEnergyProduction(p, year + 1) == rated * Pow(b, year + 1);
      assert rated * (b * Pow(b, year)) == (rated * Pow(b, year)) * b;
    }
  }

  /** With plausible inputs production is never negative and never grows
      from one operating year to a later one. */
  lemma ProductionNonIncreasing(p: SolarProject, y1: int, y2: int)
    requires Plausible(p) && y1 <= y2
    ensures 0.0 <= EstimateEnergyProduction(p, y2) <= EstimateEnergyProduction(p, y1)
  {
    if Truthy(p.capacityMw) {
      var rated := p.capacityMw.value * 1752.0 * RatioFactor(p);
      assert 0.0 <= p.capacityMw.value * 1752.0;
      MulNonNegative(p.capacityMw.value * 1752.0, RatioFactor(p));
      var e1, e2 := EstimateEnergyProduction(p, y1), EstimateEnergyProduction(p, y2);
      if Truthy(p.degradationRate) && y2 > 0 {
        var b := 1.0 - p.degradationRate.value / 100.0;
        var q2 := Pow(b, y2);
        PowInUnitInterval(b, y2);
        assert e2 == rated * q2;
        if y1 > 0 {
          var q1 := Pow(b, y1);
          assert e1 == rated * q1;
          PowAntitone(b, y1, y2);
          ScaledOrder(e1, e2, rated, q1, q2);
        } else {
          assert e1 == rated;
          assert rated == rated * 1.0;
          ScaledOrder(e1, e2, rated, 1.0, q2);
        }
      } else {
        assert e1 == rated && e2 == rated;
      }
    }
  }

  /** Scaling a factor in [0, 1] by a base in [0, 1] stays in [0, 1] and
      never exceeds the factor. */
  lemma UnitProduct(b: real, q: real)
    requires 0.0 <= b <= 1.0 && 0.0 <= q <= 1.0
    ensures 0.0 <= b * q <= q
  {
    MulMonotone(q, b, 1.0);
    assert q * b == b * q;
  }

  lemma MulNonNegative(a: real, x: real)
    requires 0.0 <= a && 0.0 <= x
    ensures 0.0 <= a * x
  {
  }

  lemma ScaledOrder(e1: real, e2: real, a: real, q1: real, q2: real)
    requires e1 == a * q1 && e2 == a * q2
    requires 0.0 <= a && 0.0 <= q2 <= q1
    ensures 0.0 <= e2 <= e1
  {
    MulMonotone(a, q2, q1);
  }

  lemma MulMonotone(a: real, x: real, y: real)
    requires 0.0 <= a && 0.0 <= x <= y
    ensures 0.0 <= a * x <= a * y
  {
  }

  // ---- Financial metrics stub -------------------------------------------

  /** Keyword arguments of calculate_financial_metrics; None means the
      caller left the default. */
  datatype RateArguments = RateArguments(
    discountRate: Option<real>,
    inflationRate: Option<real>,
    debtRatio: Option<real>,
    interestRate: Option<real>)

  datatype FinancialMetrics = FinancialMetrics(
    npv: real, irr: real, paybackPeriod: real, lcoe: real,
    discountRate: real, inflationRate: real, debtRatio: real, interestRate: real)

  const DefaultDiscountRate: real := 0.08
  const DefaultInflationRate: real := 0.025
  const DefaultDebtRatio: real := 0.7
  const DefaultInterestRate: real := 0.05

  function ArgOr(x: Option<real>, default: real): real
  {
    if x.Some? then x.value else default
  }

  /** The placeholder: all four metrics are 0 and the four rates are echoed
      (or their defaults); the project is not consulted. */
  function CalculateFinancialMetrics(project: SolarProject, args: RateArguments): (m: FinancialMetrics)
    ensures m.npv == 0.0 && m.irr == 0.0 && m.paybackPeriod == 0.0 && m.lcoe == 0.0
    ensures args.discountRate.Some? ==> m.discountRate == args.discountRate.value
    ensures args.inflationRate.Some? ==> m.inflationRate == args.inflationRate.value
    ensures args.debtRatio.Some? ==> m.debtRatio == args.debtRatio.value
    ensures args.interestRate.Some? ==> m.interestRate == args.interestRate.value
    ensures args.discountRate.None? ==> m.discountRate == 0.08
    ensures args.inflationRate.None? ==> m.inflationRate == 0.025
    ensures args.debtRatio.None? ==> m.debtRatio == 0.7
    ensures args.interestRate.None? ==> m.interestRate == 0.05
  {
    FinancialMetrics(0.0, 0.0, 0.0, 0.0,
      ArgOr(args.discountRate, DefaultDiscountRate),
      ArgOr(args.inflationRate, DefaultInflationRate),
      ArgOr(args.debtRatio, DefaultDebtRatio),
      ArgOr(args.interestRate, DefaultInterestRate))
  }

  /** The rate arguments that reproduce the rates a result reports. */
  function RatesOf(m: FinancialMetrics): RateArguments
  {
    RateArguments(Some(m.discountRate), Some(m.inflationRate), Some(m.debtRatio), Some(m.interestRate))
  }

  /** Passing the echoed rates back in, for any project, reproduces the
      result: the metrics depend on the rates alone, and the echo loses
      nothing. */
  lemma MetricsEchoRoundTrip(p: SolarProject, q: SolarProject, args: RateArguments)
    ensures CalculateFinancialMetrics(q, RatesOf(CalculateFinancialMetrics(p, args))) ==
      CalculateFinancialMetrics(p, args)
  {
  }
}

=== FILE: grid.dfy ===
/** The gridded data the browser receives from the server: rows of cells,
    each cell either a single sample (2D data) or a per-time-step vector of
    samples (3D data). A missing sample -- NaN, or the undefined that an
    out-of-range index produces -- is None. */
module Grid {
  import opened Wrappers

  type Sample = Option<real>

  datatype Cell = Scalar(value: Sample) | Series(samples: seq<Sample>)

  type Grid = seq<seq<Cell>>

  /** `data[i][j][t]`: indexing past the end of a series, or indexing a
      scalar cell at all, yields undefined, which counts as missing. */
  function SampleAt(c: Cell, t: nat): (s: Sample)
    ensures s.Some? ==> c.Series? && t < |c.samples| && c.samples[t] == s
    ensures c.Series? && t < |c.samples| ==> s == c.samples[t]
  {
    match c
    case Series(xs) => if t < |xs| then xs[t] else None
    case Scalar(_) => None
  }

  /** Reading data[0][0] of a grid with no rows throws in the browser. */
  datatype GridError = EmptyGrid

  /** The browser treats a grid as 3D when its first cell is an array; a
      row with no cells reads `undefined`, which is not an array. A 2D
      grid's first cell, when there is one, holds exactly one sample. */
  function IsThreeD(g: Grid): (b: bool)
    requires |g| > 0
    ensures b <==> |g[0]| > 0 && g[0][0] == Series(CellSamples(g[0][0]))
    ensures !b && |g[0]| > 0 ==> |CellSamples(g[0][0])| == 1
  {
    |g[0]| > 0 && g[0][0].Series?
  }

  /** The non-missing values of a sample sequence, in order. */
  function Valid(s: seq<Sample>): seq<real>
  {
    if |s| == 0 then []
    else Valid(s[..|s| - 1]) + (if s[|s| - 1].Some? then [s[|s| - 1].value] else [])
  }

  lemma {:induction false} ValidMembership(s: seq<Sample>, x: real)
    ensures x in Valid(s) <==> Some(x) in s
  {
    if |s| > 0 {
      var p := s[..|s| - 1];
      assert s == p + [s[|s| - 1]];
      ValidMembership(p, x);
    }
  }

  lemma {:induction false} ValidLength(s: seq<Sample>)
    ensures |Valid(s)| <= |s|
    ensures |Valid(s)| == |s| <==> forall k :: 0 <= k < |s| ==> s[k].Some?
  {
    if |s| > 0 {
      var p := s[..|s| - 1];
      ValidLength(p);
      if |Valid(s)| == |s| {
        forall k | 0 <= k < |s|
          ensures s[k].Some?
        {
          if k < |s| - 1 {
            assert s[k] == p[k];
          }
        }
      }
    }
  }

  lemma {:induction false} ValidAppend(a: seq<Sample>, b: seq<Sample>)
    ensures Valid(a + b) == Valid(a) + Valid(b)
  {
    if |b| > 0 {
      var b' := b[..|b| - 1];
      assert (a + b)[..|a + b| - 1] == a + b';
      ValidAppend(a, b');
    } else {
      assert a + b == a;
    }
  }

  function Sum(xs: seq<real>): real
  {
    if |xs| == 0 then 0.0 else Sum(xs[..|xs| - 1]) + xs[|xs| - 1]
  }

  lemma {:induction false} SumAppend(a: seq<real>, b: seq<real>)
    ensures Sum(a + b) == Sum(a) + Sum(b)
  {
    if |b| > 0 {
      var b' := b[..|b| - 1];
      assert (a + b)[..|a + b| - 1] == a + b';
      SumAppend(a, b');
    } else {
      assert a + b == a;
    }
  }

  /** Arithmetic mean, or None for an empty sequence (the source's `null`). */
  function Mean(xs: seq<real>): Option<real>
  {
    if |xs| == 0 then None else Some(Sum(xs) / (|xs| as real))
  }

  function Min(xs: seq<real>): (m: real)
    requires |xs| > 0
    ensures m in xs
    ensures forall k :: 0 <= k < |xs| ==> m <= xs[k]
  {
    if |xs| == 1 then xs[0]
    else
      var rest := Min(xs[..|xs| - 1]);
      assert forall k :: 0 <= k < |xs| - 1 ==> xs[..|xs| - 1][k] == xs[k];
      if xs[|xs| - 1] < rest then xs[|xs| - 1] else rest
  }

  function Max(xs: seq<real>): (m: real)
    requires |xs| > 0
    ensures m in xs
    ensures forall k :: 0 <= k < |xs| ==> xs[k] <= m
  {
    if |xs| == 1 then xs[0]
    else
      var rest := Max(xs[..|xs| - 1]);
      assert forall k :: 0 <= k < |xs| - 1 ==> xs[..|xs| - 1][k] == xs[k];
      if xs[|xs| - 1] > rest then xs[|xs| - 1] else rest
  }

  /** A sum of values that all lie in [lo, hi] lies in [lo * n, hi * n]. */
  lemma {:induction false} SumBounds(xs: seq<real>, lo: real, hi: real)
    requires forall k :: 0 <= k < |xs| ==> lo <= xs[k] <= hi
    ensures lo * (|xs| as real) <= Sum(xs) <= hi * (|xs| as real)
  {
    if |xs| > 0 {
      var p := xs[..|xs| - 1];
      SumBounds(p, lo, hi);
      var k := |p| as real;
      assert lo * (k + 1.0) == lo * k + lo;
      assert hi * (k + 1.0) == hi * k + hi;
    }
  }

  lemma DivideBounds(lo: real, s: real, hi: real, n: real)
    requires 0.0 < n
    requires lo * n <= s <= hi * n
    ensures lo <= s / n <= hi
  {
    var q := s / n;
    assert q * n == s;
  }

  /** A mean of values that all lie in [lo, hi] lies in [lo, hi]. */
  lemma {:induction false} MeanBounds(xs: seq<real>, lo: real, hi: real)
    requires |xs| > 0
    requires forall k :: 0 <= k < |xs| ==> lo <= xs[k] <= hi
    ensures Mean(xs).Some? && lo <= Mean(xs).value <= hi
  {
    SumBounds(xs, lo, hi);
    DivideBounds(lo, Sum(xs), hi, |xs| as real);
  }

  /** Every mean of a non-empty sequence lies between its minimum and maximum. */
  lemma {:induction false} MeanBetweenMinMax(xs: seq<real>)
    requires |xs| > 0
    ensures Mean(xs).Some?
    ensures Min(xs) <= Mean(xs).value <= Max(xs)
  {
    MeanBounds(xs, Min(xs), Max(xs));
  }

  /** The samples of one row at time step t. */
  function RowSamples(row: seq<Cell>, t: nat): (r: seq<Sample>)
    ensures |r| == |row|
  {
    seq(|row|, j requires 0 <= j < |row| => SampleAt(row[j], t))
  }

  /** All samples at time step t, in row-major order. */
  function ColumnAt(g: Grid, t: nat): seq<Sample>
  {
    if |g| == 0 then [] else ColumnAt(g[..|g| - 1], t) + RowSamples(g[|g| - 1], t)
  }

  lemma {:induction false} ColumnAtMembership(g: Grid, t: nat, y: Sample)
    ensures y in ColumnAt(g, t) <==>
      exists i, j :: 0 <= i < |g| && 0 <= j < |g[i]| && SampleAt(g[i][j], t) == y
  {
    if |g| > 0 {
      var p := g[..|g| - 1];
      ColumnAtMembership(p, t, y);
      var last := RowSamples(g[|g| - 1], t);
      if y in ColumnAt(g, t) {
        if y in last {
          var j :| 0 <= j < |last| && last[j] == y;
          assert SampleAt(g[|g| - 1][j], t) == y;
        } else {
          var i, j :| 0 <= i < |p| && 0 <= j < |p[i]| && SampleAt(p[i][j], t) == y;
          assert g[i] == p[i];
        }
      }
      if exists i, j :: 0 <= i < |g| && 0 <= j < |g[i]| && SampleAt(g[i][j], t) == y {
        var i, j :| 0 <= i < |g| && 0 <= j < |g[i]| && SampleAt(g[i][j], t) == y;
        if i < |g| - 1 {
          assert p[i] == g[i];
        } else {
          assert last[j] == y;
        }
      }
    }
  }

  /** The samples a cell holds: all of a series, or the single scalar. */
  function CellSamples(c: Cell): seq<Sample>
  {
    match c
    case Series(xs) => xs
    case Scalar(v) => [v]
  }

  function RowAll(row: seq<Cell>): seq<Sample>
  {
    if |row| == 0 then [] else RowAll(row[..|row| - 1]) + CellSamples(row[|row| - 1])
  }

  /** Every sample of the grid in row-major (i, j, t) order. */
  function AllSamples(g: Grid): seq<Sample>
  {
    if |g| == 0 then [] else AllSamples(g[..|g| - 1]) + RowAll(g[|g| - 1])
  }

  lemma {:induction false} RowAllMembership(row: seq<Cell>, y: Sample)
    ensures y in RowAll(row) <==> exists j :: 0 <= j < |row| && y in CellSamples(row[j])
  {
    if |row| > 0 {
      var p := row[..|row| - 1];
      RowAllMembership(p, y);
      if exists j :: 0 <= j < |row| && y in CellSamples(row[j]) {
        var j :| 0 <= j < |row| && y in CellSamples(row[j]);
        if j < |row| - 1 {
          assert p[j] == row[j];
        }
      }
    }
  }

  lemma {:induction false} AllSamplesMembership(g: Grid, y: Sample)
    ensures y in AllSamples(g) <==>
      exists i, j :: 0 <= i < |g| && 0 <= j < |g[i]| && y in CellSamples(g[i][j])
  {
    if |g| > 0 {
      var p := g[..|g| - 1];
      AllSamplesMembership(p, y);
      RowAllMembership(g[|g| - 1], y);
      if y in AllSamples(g) && y !in RowAll(g[|g| - 1]) {
        var i, j :| 0 <= i < |p| && 0 <= j < |p[i]| && y in CellSamples(p[i][j]);
        assert g[i] == p[i];
      }
      if exists i, j :: 0 <= i < |g| && 0 <= j < |g[i]| && y in CellSamples(g[i][j]) {
        var i, j :| 0 <= i < |g| && 0 <= j < |g[i]| && y in CellSamples(g[i][j]);
        if i < |g| - 1 {
          assert p[i] == g[i];
        }
      }
    }
  }
}

=== FILE: json_export.dfy ===
/** JSON export of the loaded data. JSON.stringify writes a NaN sample as
    `null`, so a missing sample becomes JNull. The 'current' scope copies
    the variable, units, data, latitudes, longitudes and (when present) the
    time axis; the 'full' scope writes the whole loaded record, which here
    adds the server's statistics. The text layout of JSON.stringify is not
    modelled; the exported value is a Json tree. */
module JsonExport {
  import opened Wrappers
  import opened Grid
  import opened CsvExport

  datatype Json =
    | JNull
    | JNum(num: real)
    | JStr(str: string)
    | JArr(items: seq<Json>)
    | JObj(members: seq<Member>)

  datatype Member = Member(key: string, value: Json)

  /** The statistics the server computes and the page displays as-is. */
  datatype Statistics = Statistics(min: real, max: real, mean: real, std: real)

  /** The record the page holds after loading a variable. */
  datatype LoadedData = LoadedData(
    variable: string,
    units: string,
    data: Grid,
    latitudes: Coords,
    longitudes: Coords,
    times: Option<seq<string>>,
    statistics: Statistics)

  /** The fields a 'current' export keeps. */
  datatype ExportedData = ExportedData(
    variable: string,
    units: string,
    data: Grid,
    latitudes: Coords,
    longitudes: Coords,
    times: Option<seq<string>>)

  function View(d: LoadedData): ExportedData
  {
    ExportedData(d.variable, d.units, d.data, d.latitudes, d.longitudes, d.times)
  }

  // ---- Encoding -------------------------------------------------------

  function SampleJson(s: Sample): Json
  {
    match s
    case Some(v) => JNum(v)
    case None => JNull
  }

  function SamplesJson(xs: seq<Sample>): seq<Json>
  {
    seq(|xs|, k requires 0 <= k < |xs| => SampleJson(xs[k]))
  }

  function CellJson(c: Cell): Json
  {
    match c
    case Scalar(s) => SampleJson(s)
    case Series(xs) => JArr(SamplesJson(xs))
  }

  function CellsJson(row: seq<Cell>): seq<Json>
  {
    seq(|row|, j requires 0 <= j < |row| => CellJson(row[j]))
  }

  function GridJson(g: Grid): Json
  {
    JArr(seq(|g|, i requires 0 <= i < |g| => JArr(CellsJson(g[i]))))
  }

  function NumsJson(xs: seq<real>): Json
  {
    JArr(seq(|xs|, k requires 0 <= k < |xs| => JNum(xs[k])))
  }

  function CoordsJson(c: Coords): Json
  {
    JArr(seq(|c|, i requires 0 <= i < |c| => NumsJson(c[i])))
  }

  function TimesJson(ts: seq<string>): Json
  {
    JArr(seq(|ts|, k requires 0 <= k < |ts| => JStr(ts[k])))
  }

  function StatisticsJson(s: Statistics): Json
  {
    JObj([Member("min", JNum(s.min)), Member("max", JNum(s.max)),
          Member("mean", JNum(s.mean)), Member("std", JNum(s.std))])
  }

  function CurrentMembers(d: LoadedData): seq<Member>
  {
    [ Member("variable", JStr(d.variable)),
      Member("units", JStr(d.units)),
      Member("data", GridJson(d.data)),
      Member("latitudes", CoordsJson(d.latitudes)),
      Member("longitudes", CoordsJson(d.longitudes)) ]
    + (match d.times case Some(ts) => [Member("times", TimesJson(ts))] case None => [])
  }

  /** exportToJSON's exported value for the chosen scope: an object with
      no repeated key, holding five members, plus the time axis when the
      data has one, plus the statistics in the 'full' scope. */
  function ExportJson(d: LoadedData, scope: Scope): (j: Json)
    ensures j.JObj?
    ensures |j.members| == 5 + (if d.times.Some? then 1 else 0) + (if scope == Full then 1 else 0)
    ensures forall a, b :: 0 <= a < b < |j.members| ==> j.members[a].key != j.members[b].key
  {
    match scope
    case Current => JObj(CurrentMembers(d))
    case Full => JObj(CurrentMembers(d) + [Member("statistics", StatisticsJson(d.statistics))])
  }

  // ---- Decoding -------------------------------------------------------

  /** The value of the first member with this key. */
  function Lookup(ms: seq<Member>, key: string): Option<Json>
  {
    if |ms| == 0 then None
    else if ms[0].key == key then Some(ms[0].value)
    else Lookup(ms[1..], key)
  }

  function DecodeSample(j: Json): Option<Sample>
  {
    match j
    case JNum(v) => Some(Some(v))
    case JNull => Some(None)
    case _ => None
  }

  function DecodeSamples(items: seq<Json>): Option<seq<Sample>>
  {
    if |items| == 0 then Some([])
    else
      var s :- DecodeSample(items[0]);
      var rest :- DecodeSamples(items[1..]);
      Some([s] + rest)
  }

  function DecodeCell(j: Json): Option<Cell>
  {
    match j
    case JArr(items) =>
      var xs :- DecodeSamples(items);
      Some(Series(xs))
    case _ =>
      var s :- DecodeSample(j);
      Some(Scalar(s))
  }

  function DecodeCells(items: seq<Json>): Option<seq<Cell>>
  {
    if |items| == 0 then Some([])
    else
      var c :- DecodeCell(items[0]);
      var rest :- DecodeCells(items[1..]);
      Some([c] + rest)
  }

  function DecodeRows(items: seq<Json>): Option<Grid>
  {
    if |items| == 0 then Some([])
    else
      var row :- (match items[0] case JArr(cells) => DecodeCells(cells) case _ => None);
      var rest :- DecodeRows(items[1..]);
      Some([row] + rest)
  }

  function DecodeGrid(j: Json): Option<Grid>
  {
    match j
    case JArr(items) => DecodeRows(items)
    case _ => None
  }

  function DecodeNums(items: seq<Json>): Option<seq<real>>
  {
    if |items| == 0 then Some([])
    else
      var x :- (match items[0] case JNum(v) => Some(v) case _ => None);
      var rest :- DecodeNums(items[1..]);
      Some([x] + rest)
  }

  function DecodeCoordRows(items: seq<Json>): Option<Coords>
  {
    if |items| == 0 then Some([])
    else
      var row :- (match items[0] case JArr(xs) => DecodeNums(xs) case _ => None);
      var rest :- DecodeCoordRows(items[1..]);
      Some([row] + rest)
  }

  function DecodeCoords(j: Json): Option<Coords>
  {
    match j
    case JArr(items) => DecodeCoordRows(items)
    case _ => None
  }

  function DecodeStrings(items: seq<Json>): Option<seq<string>>
  {
    if |items| == 0 then Some([])
    else
      var x :- (match items[0] case JStr(s) => Some(s) case _ => None);
      var rest :- DecodeStrings(items[1..]);
      Some([x] + rest)
  }

  function DecodeString(j: Option<Json>): Option<string>
  {
    match j
    case Some(JStr(s)) => Some(s)
    case _ => None
  }

  /** Reads an exported JSON value back; an absent "times" member means the
      record had no time axis. */
  function DecodeExport(j: Json): Option<ExportedData>
  {
    match j
    case JObj(ms) =>
      var variable :- DecodeString(Lookup(ms, "variable"));
      var units :- DecodeString(Lookup(ms, "units"));
      var dataJson :- Lookup(ms, "data");
      var data :- DecodeGrid(dataJson);
      var latsJson :- Lookup(ms, "latitudes");
      var lats :- DecodeCoords(latsJson);
      var lonsJson :- Lookup(ms, "longitudes");
      var lons :- DecodeCoords(lonsJson);
      var times :- (match Lookup(ms, "times")
        case None => Some(None)
        case Some(JArr(items)) =>
          (match DecodeStrings(items) case Some(ts) => Some(Some(ts)) case None => None)
        case Some(_) => None);
      Some(ExportedData(variable, units, data, lats, lons, times))
    case _ => None
  }

  // ---- Round trips ----------------------------------------------------

  lemma {:induction false} SamplesRoundTrip(xs: seq<Sample>)
    ensures DecodeSamples(SamplesJson(xs)) == Some(xs)
  {
    if |xs| > 0 {
      assert SamplesJson(xs)[1..] == SamplesJson(xs[1..]);
      SamplesRoundTrip(xs[1..]);
      assert xs == [xs[0]] + xs[1..];
    }
  }

  lemma CellRoundTrip(c: Cell)
    ensures DecodeCell(CellJson(c)) == Some(c)
  {
    match c
    case Series(xs) => SamplesRoundTrip(xs);
    case Scalar(s) =>
  }

  lemma {:induction false} CellsRoundTrip(row: seq<Cell>)
    ensures DecodeCells(CellsJson(row)) == Some(row)
  {
    if |row| > 0 {
      assert CellsJson(row)[1..] == CellsJson(row[1..]);
      CellRoundTrip(row[0]);
      CellsRoundTrip(row[1..]);
      assert row == [row[0]] + row[1..];
    }
  }

  lemma {:induction false} GridRoundTrip(g: Grid)
    ensures DecodeGrid(GridJson(g)) == Some(g)
  {
    if |g| > 0 {
      assert GridJson(g).items[1..] == GridJson(g[1..]).items;
      CellsRoundTrip(g[0]);
      GridRoundTrip(g[1..]);
      assert g == [g[0]] + g[1..];
    }
  }

  lemma {:induction false} NumsRoundTrip(xs: seq<real>)
    ensures DecodeNums(NumsJson(xs).items) == Some(xs)
  {
    if |xs| > 0 {
      assert NumsJson(xs).items[1..] == NumsJson(xs[1..]).items;
      NumsRoundTrip(xs[1..]);
      assert xs == [xs[0]] + xs[1..];
    }
  }

  lemma {:induction false} CoordsRoundTrip(c: Coords)
    ensures DecodeCoords(CoordsJson(c)) == Some(c)
  {
    if |c| > 0 {
      assert CoordsJson(c).items[1..] == CoordsJson(c[1..]).items;
      NumsRoundTrip(c[0]);
      CoordsRoundTrip(c[1..]);
      assert c == [c[0]] + c[1..];
    }
  }

  lemma {:induction false} TimesRoundTrip(ts: seq<string>)
    ensures DecodeStrings(TimesJson(ts).items) == Some(ts)
  {
    if |ts| > 0 {
      assert TimesJson(ts).items[1..] == TimesJson(ts[1..]).items;
      TimesRoundTrip(ts[1..]);
      assert ts == [ts[0]] + ts[1..];
    }
  }

  /** Lookup finds the first member carrying the key. */
  lemma {:induction false} LookupFirst(ms: seq<Member>, k: nat, key: string)
    requires k < |ms| && ms[k].key == key
    requires forall m :: 0 <= m < k ==> ms[m].key != key
    ensures Lookup(ms, key) == Some(ms[k].value)
  {
    if k > 0 {
      LookupFirst(ms[1..], k - 1, key);
    }
  }

  lemma {:induction false} LookupAbsent(ms: seq<Member>, key: string)
    requires forall m :: 0 <= m < |ms| ==> ms[m].key != key
    ensures Lookup(ms, key) == None
  {
    if |ms| > 0 {
      LookupAbsent(ms[1..], key);
    }
  }

  /** Every export carries the five copied members, in this order, first. */
  lemma ExportMembers(d: LoadedData, scope: Scope)
    ensures ExportJson(d, scope).JObj?
    ensures var ms := ExportJson(d, scope).members;
      && ms[0].key == "variable" && ms[1].key == "units" && ms[2].key == "data"
      && ms[3].key == "latitudes" && ms[4].key == "longitudes"
    ensures var ms := ExportJson(d, scope).members;
      && Lookup(ms, "variable") == Some(JStr(d.variable))
      && Lookup(ms, "units") == Some(JStr(d.units))
      && Lookup(ms, "data") == Some(GridJson(d.data))
      && Lookup(ms, "latitudes") == Some(CoordsJson(d.latitudes))
      && Lookup(ms, "longitudes") == Some(CoordsJson(d.longitudes))
      && Lookup(ms, "times") == (match d.times case Some(ts) => Some(TimesJson(ts)) case None => None)
  {
    var ms := ExportJson(d, scope).members;
    assert ms[0].key == "variable" && ms[1].key == "units" && ms[2].key == "data";
    assert ms[3].key == "latitudes" && ms[4].key == "longitudes";
    LookupFirst(ms, 0, "variable");
    LookupFirst(ms, 1, "units");
    LookupFirst(ms, 2, "data");
    LookupFirst(ms, 3, "latitudes");
    LookupFirst(ms, 4, "longitudes");
    if d.times.Some? {
      assert ms[5].key == "times";
      LookupFirst(ms, 5, "times");
    } else {
      LookupAbsent(ms, "times");
    }
  }

  /** Reading either export back yields the loaded variable, units, grid,
      coordinates and time axis unchanged (missing samples come back as
      missing). */
  lemma ExportRoundTrip(d: LoadedData, scope: Scope)
    ensures DecodeExport(ExportJson(d, scope)) == Some(View(d))
  {
    ExportMembers(d, scope);
    GridRoundTrip(d.data);
    CoordsRoundTrip(d.latitudes);
    CoordsRoundTrip(d.longitudes);
    if d.times.Some? {
      TimesRoundTrip(d.times.value);
    }
  }

  /** The two scopes differ only in the 'full' export carrying the
      statistics, which the 'current' export drops. */
  lemma FullAddsOnlyStatistics(d: LoadedData)
    ensures ExportJson(d, Full).members == ExportJson(d, Current).members + [Member("statistics", StatisticsJson(d.statistics))]
    ensures Lookup(ExportJson(d, Current).members, "statistics") == None
    ensures Lookup(ExportJson(d, Full).members, "statistics") == Some(StatisticsJson(d.statistics))
  {
    var cur := ExportJson(d, Current).members;
    var full := ExportJson(d, Full).members;
    LookupAbsent(cur, "statistics");
    LookupFirst(full, |full| - 1, "statistics");
  }
}

=== FILE: project_form.dfy ===
/** Building a solar project from the new-project form: blank numeric
    fields become NULL, except the lifetime, degradation rate and
    performance ratio, which default to 25 years, 0.5 %/year and 0.75. A
    value that does not parse aborts the creation. */
module ProjectForm {
  import opened Wrappers
  import opened Energy

  const DefaultLifetimeYears: int := 25
  const DefaultDegradationRate: real := 0.5
  const DefaultPerformanceRatio: real := 0.75

  /** The posted fields the model reads; None when not sent. */
  datatype SolarForm = SolarForm(
    capacityMw: Option<string>,
    expectedLifetimeYears: Option<string>,
    degradationRate: Option<string>,
    performanceRatio: Option<string>)

  /** int()/float() rejected this text; the flashed message quotes it. */
  datatype FormError = ValueError(text: string)

  predicate Blank(field: Option<string>)
  {
    field.None? || field.value == ""
  }

  /** The field is blank, or its text parses: the conversion does not raise. */
  predicate Accepted<T>(field: Option<string>, parse: string -> Option<T>)
  {
    Blank(field) || parse(field.value).Some?
  }

  /** `float(x) if x else None` */
  function OptionalNumber(field: Option<string>, parse: string -> Option<real>): (r: Result<Option<real>, FormError>)
    ensures Blank(field) ==> r == Success(None)
    ensures !Blank(field) && parse(field.value).Some? ==> r == Success(parse(field.value))
    ensures !Blank(field) && parse(field.value).None? ==> r == Failure(ValueError(field.value))
  {
    if Blank(field) then Success(None)
    else match parse(field.value)
      case Some(v) => Success(Some(v))
      case None => Failure(ValueError(field.value))
  }

  /** `form.get(name, default)` then `parse(x) if x else default` */
  function NumberOr<T>(field: Option<string>, default: T, parse: string -> Option<T>): (r: Result<T, FormError>)
    ensures Blank(field) ==> r == Success(default)
    ensures !Blank(field) && parse(field.value).Some? ==> r == Success(parse(field.value).value)
    ensures !Blank(field) && parse(field.value).None? ==> r == Failure(ValueError(field.value))
  {
    if Blank(field) then Success(default)
    else match parse(field.value)
      case Some(v) => Success(v)
      case None => Failure(ValueError(field.value))
  }

  /** The SolarProject of new_project, fields evaluated in source order. */
  function NewSolarProject(f: SolarForm, parseFloat: string -> Option<real>, parseInt: string -> Option<int>): (r: Result<SolarProject, FormError>)
    ensures r.Success? && Blank(f.expectedLifetimeYears) ==> r.value.expectedLifetimeYears == 25
    ensures r.Success? && Blank(f.degradationRate) ==> r.value.degradationRate == Some(0.5)
    ensures r.Success? && Blank(f.performanceRatio) ==> r.value.performanceRatio == Some(0.75)
    ensures r.Success? && Blank(f.capacityMw) ==> r.value.capacityMw == None
    ensures r.Success? && !Blank(f.capacityMw) ==> r.value.capacityMw == parseFloat(f.capacityMw.value)
    ensures r.Success? && !Blank(f.expectedLifetimeYears) ==>
      Some(r.value.expectedLifetimeYears) == parseInt(f.expectedLifetimeYears.value)
    ensures r.Success? && !Blank(f.degradationRate) ==> r.value.degradationRate == parseFloat(f.degradationRate.value)
    ensures r.Success? && !Blank(f.performanceRatio) ==> r.value.performanceRatio == parseFloat(f.performanceRatio.value)
    ensures r.Success? <==>
      (Blank(f.capacityMw) || parseFloat(f.capacityMw.value).Some?) &&
      (Blank(f.expectedLifetimeYears) || parseInt(f.expectedLifetimeYears.value).Some?) &&
      (Blank(f.degradationRate) || parseFloat(f.degradationRate.value).Some?) &&
      (Blank(f.performanceRatio) || parseFloat(f.performanceRatio.value).Some?)
    // A failed build reports the first field, in the order capacity,
    // lifetime, degradation rate, performance ratio, whose text does not parse.
    ensures !Accepted(f.capacityMw, parseFloat) ==> r == Failure(ValueError(f.capacityMw.value))
    ensures Accepted(f.capacityMw, parseFloat) && !Accepted(f.expectedLifetimeYears, parseInt) ==>
      r == Failure(ValueError(f.expectedLifetimeYears.value))
    ensures (Accepted(f.capacityMw, parseFloat) && Accepted(f.expectedLifetimeYears, parseInt)
             && !Accepted(f.degradationRate, parseFloat)) ==>
      r == Failure(ValueError(f.degradationRate.value))
    ensures (Accepted(f.capacityMw, parseFloat) && Accepted(f.expectedLifetimeYears, parseInt)
             && Accepted(f.degradationRate, parseFloat) && !Accepted(f.performanceRatio, parseFloat)) ==>
      r == Failure(ValueError(f.performanceRatio.value))
  {
    var capacity :- OptionalNumber(f.capacityMw, parseFloat);
    var lifetime :- NumberOr(f.expectedLifetimeYears, DefaultLifetimeYears, parseInt);
    var degradation :- NumberOr(f.degradationRate, DefaultDegradationRate, parseFloat);
    var ratio :- NumberOr(f.performanceRatio, DefaultPerformanceRatio, parseFloat);
    Success(SolarProject(capacity, Some(ratio), Some(degradation), lifetime))
  }

  /** A project created with blank performance and degradation fields
      produces 1752 MWh per MW at the 0.75 ratio in its first year, and 0.5 %
      less each year after. */
  lemma DefaultsDriveEstimate(f: SolarForm, parseFloat: string -> Option<real>, parseInt: string -> Option<int>, year: nat)
    requires Blank(f.degradationRate) && Blank(f.performanceRatio)
    requires NewSolarProject(f, parseFloat, parseInt).Success?
    requires Truthy(NewSolarProject(f, parseFloat, parseInt).value.capacityMw)
    ensures var p := NewSolarProject(f, parseFloat, parseInt).value;
      EstimateEnergyProduction(p, year) == p.capacityMw.value * 1752.0 * 0.75 * Pow(0.995, year)
  {
    var p := NewSolarProject(f, parseFloat, parseInt).value;
    assert p.performanceRatio == Some(0.75) && p.degradationRate == Some(0.5);
    assert 1.0 - 0.5 / 100.0 == 0.995;
    if year == 0 {
      assert Pow(0.995, 0) == 1.0;
    }
  }
}

=== FILE: reducers.dfy ===
/** The reducers that turn a server grid into what a chart needs: the
    per-time-step spatial mean (time series, seasonal cycle), the flattened
    list of valid values (histogram), a single time slice (heatmap, anomaly
    map) and the min/mean/max of a 2D result (summary cards). */
module Reducers {
  import opened Wrappers
  import opened Grid

  /** Reference meaning of one point of a time series: the mean of the
      valid samples at step t, None (the chart's `null`) when there are none. */
  function SpatialMean(g: Grid, t: nat): Sample
  {
    Mean(Valid(ColumnAt(g, t)))
  }

  /** No cell of the grid has a valid sample at step t. */
  ghost predicate NoValidAt(g: Grid, t: nat)
  {
    forall i, j :: 0 <= i < |g| && 0 <= j < |g[i]| ==> SampleAt(g[i][j], t).None?
  }

  /** The spatial mean is null exactly when no cell has a valid sample at t. */
  lemma SpatialMeanNull(g: Grid, t: nat)
    ensures SpatialMean(g, t).None? <==> NoValidAt(g, t)
  {
    var col := ColumnAt(g, t);
    if Valid(col) != [] {
      var x := Valid(col)[0];
      ValidMembership(col, x);
      ColumnAtMembership(g, t, Some(x));
    }
    if exists i, j :: 0 <= i < |g| && 0 <= j < |g[i]| && SampleAt(g[i][j], t).Some? {
      var i, j :| 0 <= i < |g| && 0 <= j < |g[i]| && SampleAt(g[i][j], t).Some?;
      var x := SampleAt(g[i][j], t).value;
      ColumnAtMembership(g, t, Some(x));
      ValidMembership(col, x);
    }
  }

  /** A non-null spatial mean lies between the smallest and largest valid
      sample at that step. */
  lemma SpatialMeanBounds(g: Grid, t: nat)
    requires SpatialMean(g, t).Some?
    ensures Valid(ColumnAt(g, t)) != []
    ensures Min(Valid(ColumnAt(g, t))) <= SpatialMean(g, t).value <= Max(Valid(ColumnAt(g, t)))
  {
    MeanBetweenMinMax(Valid(ColumnAt(g, t)));
  }

  /** The innermost sum/count loop over one row at step t. */
  method RowSumCount(row: seq<Cell>, t: nat) returns (sum: real, count: nat)
    ensures sum == Sum(Valid(RowSamples(row, t)))
    ensures count == |Valid(RowSamples(row, t))|
  {
    sum := 0.0;
    count := 0;
    var j := 0;
    assert RowSamples(row[..0], t) == [];
    while j < |row|
      invariant j <= |row|
      invariant sum == Sum(Valid(RowSamples(row[..j], t)))
      invariant count == |Valid(RowSamples(row[..j], t))|
    {
      ghost var before := RowSamples(row[..j], t);
      ghost var after := RowSamples(row[..j + 1], t);
      assert after == before + [SampleAt(row[j], t)];
      assert after[..|after| - 1] == before;
      var s := SampleAt(row[j], t);
      if s.Some? {
        assert Valid(after) == Valid(before) + [s.value];
        assert (Valid(before) + [s.value])[..|Valid(before)|] == Valid(before);
        sum := sum + s.value;
        count := count + 1;
      } else {
        assert Valid(after) == Valid(before);
      }
      j := j + 1;
    }
    assert row[..j] == row;
  }

  /** One point of the time series: sum and count over all rows, then
      `count > 0 ? sum / count : null`. */
  method SpatialMeanAt(g: Grid, t: nat) returns (m: Sample)
    ensures m == SpatialMean(g, t)
  {
    var sum := 0.0;
    var count := 0;
    var i := 0;
    while i < |g|
      invariant i <= |g|
      invariant sum == Sum(Valid(ColumnAt(g[..i], t)))
      invariant count == |Valid(ColumnAt(g[..i], t))|
    {
      var rowSum, rowCount := RowSumCount(g[i], t);
      assert g[..i + 1][..i] == g[..i];
      ValidAppend(ColumnAt(g[..i], t), RowSamples(g[i], t));
      SumAppend(Valid(ColumnAt(g[..i], t)), Valid(RowSamples(g[i], t)));
      sum := sum + rowSum;
      count := count + rowCount;
      i := i + 1;
    }
    assert g[..i] == g;
    m := if count > 0 then Some(sum / (count as real)) else None;
  }

  /** The time loop of the time-series and seasonal-cycle charts: one entry
      per step of the time axis, in order. */
  method SpatialMeanSeries(g: Grid, steps: nat) returns (r: seq<Sample>)
    ensures |r| == steps
    ensures forall t :: 0 <= t < steps ==> r[t] == SpatialMean(g, t)
  {
    r := [];
    var t := 0;
    while t < steps
      invariant t <= steps
      invariant |r| == t
      invariant forall k :: 0 <= k < t ==> r[k] == SpatialMean(g, k)
    {
      var m := SpatialMeanAt(g, t);
      r := r + [m];
      t := t + 1;
    }
  }

  /** Time-series chart: one spatial mean per entry of the time axis. */
  method TimeSeries(g: Grid, times: seq<string>) returns (values: seq<Sample>)
    ensures |values| == |times|
    ensures forall t :: 0 <= t < |times| ==> (values[t].None? <==> NoValidAt(g, t))
    ensures forall t :: 0 <= t < |times| && values[t].Some? ==>
      Valid(ColumnAt(g, t)) != [] &&
      values[t].value == Sum(Valid(ColumnAt(g, t))) / (|Valid(ColumnAt(g, t))| as real)
  {
    values := SpatialMeanSeries(g, |times|);
    forall t | 0 <= t < |times|
      ensures values[t].None? <==> NoValidAt(g, t)
    {
      SpatialMeanNull(g, t);
    }
  }

  /** Seasonal-cycle chart: one spatial mean of the monthly means per month. */
  method SeasonalCycle(monthlyMeans: Grid, months: seq<string>) returns (values: seq<Sample>)
    ensures |values| == |months|
    ensures forall m :: 0 <= m < |months| ==> values[m] == SpatialMean(monthlyMeans, m)
    ensures forall m :: 0 <= m < |months| ==> (values[m].None? <==> NoValidAt(monthlyMeans, m))
    ensures forall m :: 0 <= m < |months| && values[m].Some? ==>
      Valid(ColumnAt(monthlyMeans, m)) != [] &&
      Min(Valid(ColumnAt(monthlyMeans, m))) <= values[m].value <= Max(Valid(ColumnAt(monthlyMeans, m)))
  {
    values := SpatialMeanSeries(monthlyMeans, |months|);
    forall m | 0 <= m < |months|
      ensures values[m].None? <==> NoValidAt(monthlyMeans, m)
      ensures values[m].Some? ==>
        Valid(ColumnAt(monthlyMeans, m)) != [] &&
        Min(Valid(ColumnAt(monthlyMeans, m))) <= values[m].value <= Max(Valid(ColumnAt(monthlyMeans, m)))
    {
      SpatialMeanNull(monthlyMeans, m);
      if values[m].Some? {
        SpatialMeanBounds(monthlyMeans, m);
      }
    }
  }

  /** The valid samples of one histogram cell: an array cell's valid samples
      in time order, or a scalar cell's value when valid. */
  method CellValues(cell: Cell) returns (vs: seq<real>)
    ensures vs == Valid(CellSamples(cell))
  {
    vs := [];
    match cell {
      case Series(xs) =>
        var t := 0;
        while t < |xs|
          invariant t <= |xs|
          invariant vs == Valid(xs[..t])
        {
          assert xs[..t + 1][..t] == xs[..t];
          if xs[t].Some? {
            vs := vs + [xs[t].value];
          }
          t := t + 1;
        }
        assert xs[..t] == xs;
      case Scalar(v) =>
        assert [v][..0] == [];
        if v.Some? {
          vs := [v.value];
        }
    }
  }

  /** The valid samples of one row, cell by cell. */
  method RowValues(row: seq<Cell>) returns (values: seq<real>)
    ensures values == Valid(RowAll(row))
  {
    values := [];
    var j := 0;
    while j < |row|
      invariant j <= |row|
      invariant values == Valid(RowAll(row[..j]))
    {
      var cellValues := CellValues(row[j]);
      assert row[..j + 1][..j] == row[..j];
      ValidAppend(RowAll(row[..j]), CellSamples(row[j]));
      values := values + cellValues;
      j := j + 1;
    }
    assert row[..j] == row;
  }

  /** Histogram flattening: the valid samples of every cell, row by row. */
  method HistogramValues(g: Grid) returns (values: seq<real>)
    ensures values == Valid(AllSamples(g))
  {
    values := [];
    var i := 0;
    while i < |g|
      invariant i <= |g|
      invariant values == Valid(AllSamples(g[..i]))
    {
      var rowValues := RowValues(g[i]);
      assert g[..i + 1][..i] == g[..i];
      ValidAppend(AllSamples(g[..i]), RowAll(g[i]));
      values := values + rowValues;
      i := i + 1;
    }
    assert g[..i] == g;
  }

  /** A value appears in the histogram exactly when some cell holds it as a
      valid sample, and the histogram never has more entries than samples. */
  lemma HistogramContents(g: Grid)
    ensures forall x :: x in Valid(AllSamples(g)) <==>
      exists i, j :: 0 <= i < |g| && 0 <= j < |g[i]| && Some(x) in CellSamples(g[i][j])
    ensures |Valid(AllSamples(g))| <= |AllSamples(g)|
  {
    forall x
      ensures x in Valid(AllSamples(g)) <==>
        exists i, j :: 0 <= i < |g| && 0 <= j < |g[i]| && Some(x) in CellSamples(g[i][j])
    {
      ValidMembership(AllSamples(g), x);
      AllSamplesMembership(g, Some(x));
    }
    ValidLength(AllSamples(g));
  }

  /** The anomaly map's `cell[timeIndex]` for every cell, keeping the grid's
      row and column shape. */
  function TimeSlice(g: Grid, t: nat): (r: seq<seq<Sample>>)
    ensures |r| == |g|
    ensures forall i :: 0 <= i < |g| ==> |r[i]| == |g[i]|
    ensures forall i, j :: 0 <= i < |g| && 0 <= j < |g[i]| ==> r[i][j] == SampleAt(g[i][j], t)
  {
    seq(|g|, i requires 0 <= i < |g| => RowSamples(g[i], t))
  }

  /** Row-major flattening of a 2D grid of samples (`Array.prototype.flat`). */
  function Flatten(rows: seq<seq<Sample>>): seq<Sample>
  {
    if |rows| == 0 then [] else Flatten(rows[..|rows| - 1]) + rows[|rows| - 1]
  }

  /** The map of step t shows exactly the samples the time series averages
      at step t, in the same order. */
  lemma {:induction false} TimeSliceAgreesWithSpatialMean(g: Grid, t: nat)
    ensures Flatten(TimeSlice(g, t)) == ColumnAt(g, t)
    ensures Mean(Valid(Flatten(TimeSlice(g, t)))) == SpatialMean(g, t)
  {
    if |g| > 0 {
      var p := g[..|g| - 1];
      TimeSliceAgreesWithSpatialMean(p, t);
      assert TimeSlice(g, t)[..|g| - 1] == TimeSlice(p, t);
    }
  }

  /** Heatmap data: a 3D grid (first cell an array) is reduced to time index
      0 of every cell; a 2D grid is passed through. An empty grid makes the
      browser's `data.data[0][0]` throw. */
  function HeatmapData(g: Grid): (r: Result<Grid, GridError>)
    ensures r.Failure? <==> |g| == 0
    ensures r.Success? && !IsThreeD(g) ==> r.value == g
    ensures r.Success? && IsThreeD(g) ==>
      |r.value| == |g| &&
      (forall i :: 0 <= i < |g| ==> |r.value[i]| == |g[i]|) &&
      (forall i, j :: 0 <= i < |g| && 0 <= j < |g[i]| ==> r.value[i][j] == Scalar(SampleAt(g[i][j], 0)))
  {
    if |g| == 0 then Failure(EmptyGrid)
    else if IsThreeD(g) then
      Success(seq(|g|, i requires 0 <= i < |g| =>
        seq(|g[i]|, j requires 0 <= j < |g[i]| => Scalar(SampleAt(g[i][j], 0)))))
    else Success(g)
  }

  /** On 3D data the heatmap is the anomaly map's slice at index 0. */
  lemma HeatmapIsFirstSlice(g: Grid)
    requires |g| > 0 && IsThreeD(g)
    ensures HeatmapData(g).Success?
    ensures forall i, j :: 0 <= i < |g| && 0 <= j < |g[i]| ==>
      HeatmapData(g).value[i][j] == Scalar(TimeSlice(g, 0)[i][j])
  {
  }

  datatype Summary = Summary(min: real, mean: real, max: real)

  /** The summary cards of a 2D result (mean temperature, total
      precipitation, index values): min, mean and max over the valid values
      only; None when there is no valid value. */
  function SummaryStats(rows: seq<seq<Sample>>): (r: Option<Summary>)
    ensures r.None? <==> Valid(Flatten(rows)) == []
    ensures r.Some? ==> r.value.mean == Sum(Valid(Flatten(rows))) / (|Valid(Flatten(rows))| as real)
    ensures r.Some? ==> r.value.min <= r.value.mean <= r.value.max
    ensures r.Some? ==> Some(r.value.min) in Flatten(rows) && Some(r.value.max) in Flatten(rows)
    ensures r.Some? ==> forall x :: Some(x) in Flatten(rows) ==> r.value.min <= x <= r.value.max
  {
    var vs := Valid(Flatten(rows));
    if |vs| == 0 then None
    else
      MeanBetweenMinMax(vs);
      ValidMembership(Flatten(rows), Min(vs));
      ValidMembership(Flatten(rows), Max(vs));
      assert forall x :: Some(x) in Flatten(rows) ==> x in vs by {
        forall x | Some(x) in Flatten(rows)
          ensures x in vs
        {
          ValidMembership(Flatten(rows), x);
        }
      }
      Some(Summary(Min(vs), Mean(vs).value, Max(vs)))
  }

  /** A cross-check between two reductions of the model: summarising the
      slice at step t gives the same mean as the spatial mean at t. */
  lemma SummaryAgreesWithSpatialMean(g: Grid, t: nat)
    ensures SummaryStats(TimeSlice(g, t)).None? <==> SpatialMean(g, t).None?
    ensures SummaryStats(TimeSlice(g, t)).Some? ==>
      SummaryStats(TimeSlice(g, t)).value.mean == SpatialMean(g, t).value
  {
    TimeSliceAgreesWithSpatialMean(g, t);
  }
}

=== FILE: upload.dfy ===
/** The upload filter for project imports: a file is accepted when its name
    has a '.' and the text after the last '.', lower-cased, is csv, xlsx or
    xls. */
module Upload {

  const AllowedExtensions: set<string> := {"csv", "xlsx", "xls"}

  /** Lower-casing of one character; only ASCII letters change (no other
      character lower-cases to a letter of the three extensions). */
  function LowerChar(c: char): char
  {
    if 'A' <= c <= 'Z' then (c as int + 32) as char else c
  }

  /** `str.lower()` on the ASCII letters: each character is lowered in
      place. */
  function Lower(s: string): (r: string)
    ensures |r| == |s|
    ensures forall k {:trigger r[k]} :: 0 <= k < |s| ==> r[k] == LowerChar(s[k])
  {
    seq(|s|, k requires 0 <= k < |s| => LowerChar(s[k]))
  }

  /** Position of the last '.', or -1 when there is none. */
  function LastDot(s: string): (k: int)
    ensures -1 <= k < |s|
    ensures k >= 0 ==> s[k] == '.'
    ensures forall m :: k < m < |s| ==> s[m] != '.'
  {
    if |s| == 0 then -1
    else if s[|s| - 1] == '.' then |s| - 1
    else LastDot(s[..|s| - 1])
  }

  /** `rsplit('.', 1)[1]`: the text after the last '.'. The name is some
      stem, a '.', and the extension, which holds no '.'. */
  function Extension(s: string): (ext: string)
    requires '.' in s
    ensures |ext| < |s| && s[|s| - |ext| - 1] == '.'
    ensures s[|s| - |ext|..] == ext
    ensures '.' !in ext
  {
    s[LastDot(s) + 1..]
  }

  /** allowed_file: the name has a '.' and the lower-cased text after the
      last '.' is an allowed extension. */
  function AllowedFile(filename: string): (ok: bool)
    ensures '.' !in filename ==> !ok
  {
    '.' in filename && Lower(Extension(filename)) in AllowedExtensions
  }

  /** The verdict depends only on the last-dot position and what follows. */
  lemma AllowedFileByLastDot(filename: string)
    ensures AllowedFile(filename) ==
      (LastDot(filename) >= 0 && Lower(filename[LastDot(filename) + 1..]) in AllowedExtensions)
  {
    var k := LastDot(filename);
    if k >= 0 {
      assert filename[k] == '.';
    }
  }

  /** k holds a '.' and no '.' follows it. */
  predicate IsLastDot(filename: string, k: int)
  {
    && 0 <= k < |filename| && filename[k] == '.'
    && forall m :: k < m < |filename| ==> filename[m] != '.'
  }

  /** Independent statement of the rule: the name has a last '.', and what
      follows it, lower-cased, is an allowed extension. */
  lemma AllowedFileSpec(filename: string)
    ensures AllowedFile(filename) <==>
      exists k :: IsLastDot(filename, k) && Lower(filename[k + 1..]) in AllowedExtensions
  {
    AllowedFileByLastDot(filename);
    var k := LastDot(filename);
    if k >= 0 {
      assert IsLastDot(filename, k);
    }
    forall j | IsLastDot(filename, j)
      ensures j == k
    {
      assert j <= k;
      assert filename[k] == '.';
    }
  }

  lemma LowerIdempotent(s: string)
    ensures Lower(Lower(s)) == Lower(s)
  {
    assert forall k :: 0 <= k < |s| ==> LowerChar(LowerChar(s[k])) == LowerChar(s[k]);
  }

  lemma {:induction false} LastDotOfLower(s: string)
    ensures LastDot(Lower(s)) == LastDot(s)
  {
    if |s| > 0 {
      var n := |s| - 1;
      assert Lower(s)[..n] == Lower(s[..n]);
      LastDotOfLower(s[..n]);
    }
  }

  /** The check ignores case: a name and its lower-cased form get the same
      verdict (so "DATA.CSV" is accepted like "data.csv"). */
  lemma CaseInsensitive(filename: string)
    ensures AllowedFile(Lower(filename)) == AllowedFile(filename)
  {
    var lf := Lower(filename);
    LastDotOfLower(filename);
    AllowedFileByLastDot(filename);
    AllowedFileByLastDot(lf);
    var k := LastDot(filename);
    if k >= 0 {
      var ext := filename[k + 1..];
      assert lf[k + 1..] == Lower(ext);
      LowerIdempotent(ext);
    }
  }

  /** Only the final extension matters: with no '.' in ext, stem.ext is
      accepted exactly when ext is allowed, whatever the stem holds. */
  lemma OnlyFinalExtension(stem: string, ext: string)
    requires '.' !in ext
    ensures AllowedFile(stem + "." + ext) <==> Lower(ext) in AllowedExtensions
  {
    var s := stem + "." + ext;
    assert s[|stem|] == '.';
    assert forall m :: |stem| < m < |s| ==> s[m] == ext[m - |stem| - 1];
    assert LastDot(s) == |stem|;
    assert s[|stem| + 1..] == ext;
  }

  /** Upper-case names are accepted: "DATA.CSV". */
  lemma UpperCaseAccepted()
    ensures AllowedFile("DATA.CSV")
  {
    OnlyFinalExtension("DATA", "CSV");
    assert "DATA" + "." + "CSV" == "DATA.CSV";
    assert Lower("CSV") == "csv";
  }

  /** Only the last extension counts: "a.txt.csv" is accepted ... */
  lemma TxtCsvAccepted()
    ensures Extension("a.txt.csv") == "csv"
    ensures AllowedFile("a.txt.csv")
  {
    OnlyFinalExtension("a.txt", "csv");
    assert "a.txt" + "." + "csv" == "a.txt.csv";
    assert Lower("csv") == "csv";
  }

  /** ... and "a.csv.txt" is rejected. */
  lemma CsvTxtRejected()
    ensures !AllowedFile("a.csv.txt")
  {
    assert '.' !in "txt";
    OnlyFinalExtension("a.csv", "txt");
    assert "a.csv" + "." + "txt" == "a.csv.txt";
    assert Lower("txt") == "txt";
    assert "txt" !in AllowedExtensions;
  }

  /** A trailing '.' leaves an empty extension, which is rejected. */
  lemma TrailingDotRejected(stem: string)
    ensures !AllowedFile(stem + ".")
  {
    OnlyFinalExtension(stem, "");
    assert stem + "." + "" == stem + ".";
    assert Lower("") == "";
  }
}

=== FILE: variable_list.dfy ===
/** The variable drop-down: every variable of the dataset metadata, in
    enumeration order, except the dimension variables (lat, lon, time, ...). */
module VariableList {
  import opened Wrappers

  /** Reference definition: the variables that are not dimensions, in order. */
  function NonDimensions(variables: seq<string>, dimensions: set<string>): seq<string>
  {
    if |variables| == 0 then []
    else
      var n := |variables| - 1;
      NonDimensions(variables[..n], dimensions)
        + (if variables[n] in dimensions then [] else [variables[n]])
  }

  /** The option list populateVariableSelect builds; metadata without a
      variables object yields no options. */
  method VariableOptions(variables: Option<seq<string>>, dimensions: set<string>) returns (options: seq<string>)
    ensures variables.None? ==> options == []
    ensures variables.Some? ==> options == NonDimensions(variables.value, dimensions)
    ensures variables.Some? ==> forall v :: v in options <==> v in variables.value && v !in dimensions
  {
    options := [];
    if variables.Some? {
      var vs := variables.value;
      var k := 0;
      while k < |vs|
        invariant k <= |vs|
        invariant options == NonDimensions(vs[..k], dimensions)
        invariant forall v :: v in options <==> v in vs[..k] && v !in dimensions
      {
        assert vs[..k + 1][..k] == vs[..k];
        assert vs[..k + 1] == vs[..k] + [vs[k]];
        if vs[k] !in dimensions {
          options := options + [vs[k]];
        }
        k := k + 1;
      }
      assert vs[..k] == vs;
    }
  }

  /** The positions NonDimensions picks from, in increasing order. */
  function PickedPositions(variables: seq<string>, dimensions: set<string>): (idx: seq<nat>)
    ensures |idx| == |NonDimensions(variables, dimensions)|
    ensures forall a :: 0 <= a < |idx| ==>
      idx[a] < |variables| && variables[idx[a]] == NonDimensions(variables, dimensions)[a]
    ensures forall a, b :: 0 <= a < b < |idx| ==> idx[a] < idx[b]
  {
    if |variables| == 0 then []
    else
      var n := |variables| - 1;
      var prev := PickedPositions(variables[..n], dimensions);
      assert forall a :: 0 <= a < |prev| ==> variables[prev[a]] == variables[..n][prev[a]];
      prev + (if variables[n] in dimensions then [] else [n])
  }

  /** Filtering keeps enumeration order: the options are the variables at
      strictly increasing positions. */
  lemma OptionsKeepOrder(variables: seq<string>, dimensions: set<string>)
    ensures exists idx: seq<nat> ::
      && |idx| == |NonDimensions(variables, dimensions)|
      && (forall a :: 0 <= a < |idx| ==>
            idx[a] < |variables| && variables[idx[a]] == NonDimensions(variables, dimensions)[a])
      && (forall a, b :: 0 <= a < b < |idx| ==> idx[a] < idx[b])
  {
    var idx := PickedPositions(variables, dimensions);
  }
}

=== FILE: wrappers.dfy ===
/** Failure-compatible wrappers used across the model: Option for values that
    may be missing (a NaN sample, an absent form field) and Result for
    operations that abort with an error. */
module Wrappers {

  datatype Option<+T> = None | Some(value: T) {

    predicate IsFailure() {
      None?
    }

    function PropagateFailure<U>(): Option<U>
      requires None?
    {
      None
    }

    function Extract(): T
      requires Some?
    {
      value
    }
  }

  datatype Result<+R, +E> = Success(value: R) | Failure(error: E) {

    predicate IsFailure() {
      Failure?
    }

    function PropagateFailure<U>(): Result<U, E>
      requires Failure?
    {
      Failure(error)
    }

    function Extract(): R
      requires Success?
    {
      value
    }
  }
}
